=== FILE: README.md ===
# Insurance quote comparison — a Dafny model

This project models the quote-comparison core of a client-side insurance
quotation tool. An advisor picks an insurance line, such as SME package,
property all risk or third-party liability. The tool then offers that line's
insurers and seeds one quote per selected insurer with the line's standard
scope, limits, conditions, exclusions and deductible. The advisor edits
premiums and policy fees, and the tool derives 5% VAT and the total. It saves
the comparison at the head of a newest-first history under a reference number
`GI-YYYYMMDD-NNNN`. Finally it renders the comparison in one of two ways: a
printable HTML page with a ten-row comparison table, or a worksheet laid out
by an openpyxl script.

The application exists in two near-identical page components. Both carry
the generator page and the history page with its delete. They differ in the
download: `app/page.tsx` produces the HTML page and `page.tsx` the worksheet.
Their shared logic is modelled once.

Modules, in dependency order:

- `Wrappers` (wrappers.dfy) and `Seqs` (seqs.dfy): the `Option` type and duplicate-freedom.
- `Text` (text.dfy): JavaScript `trim` over the ECMAScript white-space set, Python `[:n]`, and joining and splitting on newlines.
- `Decimal` (decimal.dfy): `String(n)`, `padStart` and reading digits back.
- `Money` (money.dfy): amounts in whole fils, `calculateVAT`, and the text JavaScript prints for an amount.
- `Catalog` (catalog.dfy): `INSURANCE_LINES`, `INSURANCE_DEFAULTS` and their lookups.
- `Toggle` (toggle.dfy): the remove-all-or-append rule shared by the insurer selection and the condition checkboxes.
- `Quotes` (quote.dfy): the `Quote` record, `createEmptyQuote`, `updateQuote` and `toggleCondition`.
- `Reference` (reference.dfy): `generateReferenceNumber` and a decoder for its output.
- `Comparisons` (comparison.dfy): the saved comparison, and the history with prepend and delete-by-id.
- `Generator` (generator.dfy): the generator page's state. It covers the two effects that select insurers and rebuild quotes, and `saveComparison` with its ordered gate.
- `Tables` (tables.dfy): row layouts, customer details, bulleted clauses and the cell readers, shared by both renderings.
- `HtmlReport` (html.dfy): the printable page, with a reader that recovers each quote from its table column.
- `Workbook` (workbook.dfy): the worksheet layout, with the same kind of reader.
- `Parity` (parity.dfy): the two renderings agree on every quote's content.

Money is kept as an integer number of fils (1 AED = 100 fils). The
application's random ids and its clock are parameters: a `Stamp` carries the
new comparison's id, time stamp, calendar date and the reference number's
random suffix. The ids of fresh quotes come from a parameter `ids`, where
the `k`-th `generateId()` call of a rebuild yields `ids(k)`. The catalogue
is a parameter of the lookups and of the generator page. Their contracts
hold for every catalogue, and the application's is `Catalog.InsuranceDefaults`.

## Model

| member | source | states |
|---|---|---|
| `Text.Trim` | app/page.tsx:352 | The trimmed name is empty exactly when the name is only white space. Otherwise it is a contiguous slice of the name that starts and ends with a non-white-space character. |
| `Text.TrimDropsOnlyWhitespace` | app/page.tsx:352 | What trimming drops, before and after the result, is white space only, so the result is exactly the name without its leading and trailing white space. |
| `Decimal.DigitsRoundTrip` | app/page.tsx:254-256 | Reading back the decimal digits JavaScript prints for a non-negative integer gives that integer. |
| `Decimal.PadZerosValue` | app/page.tsx:254-256 | Padding a digit string with leading zeros keeps it all digits and keeps its value. |
| `Money.CalculateVat` | app/page.tsx:232-237 | VAT is 5% of premium plus policy fee and the total is 105% of it, each rounded to the nearest fils (halves away from zero). |
| `Money.TotalIsSubtotalPlusVat` | app/page.tsx:232-237 | For whole-fils inputs the separately rounded total equals the subtotal plus the rounded VAT. |
| `Money.VatSigns` | app/page.tsx:232-237 | A zero subtotal gives zero VAT and zero total. A non-negative subtotal gives VAT between zero and the subtotal, and a total at least the subtotal. |
| `Money.AmountRoundTrip` | app/page.tsx:617-632 | The text an amount is printed as in the table (`${quote.premium}` and the like) parses back to the same amount. |
| `Catalog.UnknownLine` | app/page.tsx:215-229 | For an unknown line id no insurer is offered. Scope, conditions, exclusions and deductible are empty, and the geographical limit is "United Arab Emirates". |
| `Catalog.CompaniesAgree` | app/page.tsx:215-229 | `getInsuranceCompanies` and `getLineDefaults(...).companies` agree for every id, known or not. |
| `Catalog.CatalogEntriesWellFormed` | app/page.tsx:51-212 | Every catalogue entry has at least one insurer, no insurer twice, and a non-empty geographical limit. |
| `Catalog.CatalogCoversLines` | app/page.tsx:40-212 | The selector's line ids and the catalogue's keys are the same set. |
| `Catalog.LinesWellFormed` | app/page.tsx:40-48 | No two of the application's selector options share an id, and every option has a non-empty label. |
| `Catalog.FindCaption` | app/page.tsx:365 | `find` yields nothing exactly when no option has the id. Otherwise it yields the label of the first option that has it. |
| `Catalog.LineLabelResolves` | app/page.tsx:365 | With options of distinct ids and non-empty labels, a saved comparison records the label of a listed line and the raw id of any other. |
| `Toggle.RemoveAll` | app/page.tsx:313 | Filtering removes every occurrence of the item and keeps every other item's membership. The list never grows, and it shrinks when the item was present. |
| `Toggle.RemoveAllKeepsOthers` | app/page.tsx:313 | Every other item keeps its number of occurrences. |
| `Toggle.RemoveAllAppend` | app/page.tsx:313 | Filtering works piecewise over concatenation, so the survivors keep their relative order. |
| `Toggle.Toggle` | app/page.tsx:311-317 | After a toggle the item is present exactly when it was absent before, and no other item's membership changes. A present item is removed by the same filter as `Toggle.RemoveAll`, shortening the list and keeping the other items in order. An absent item is appended at the end. |
| `Toggle.ToggleKeepsOthers` | app/page.tsx:311-317 | Toggling leaves every other item's number of occurrences unchanged. |
| `Toggle.ToggleTwiceAbsent` | app/page.tsx:311-317 | Toggling an absent item twice restores the exact sequence. |
| `Toggle.ToggleTwicePresent` | app/page.tsx:311-317 | Toggling a present item twice moves it to the end rather than restoring its position. |
| `Toggle.RemoveOnly` | app/page.tsx:313 | In a duplicate-free sequence, removing an item deletes exactly its position. |
| `Toggle.TogglePreservesNoDuplicates` | app/page.tsx:311-317 | Toggling keeps a duplicate-free selection duplicate-free. |
| `Quotes.FieldsDetermineQuote` | app/page.tsx:7-21 | Two quotes that agree on every field are equal, so the field-by-field contracts below pin down whole quotes. |
| `Quotes.CreateEmptyQuote` | app/page.tsx:291-309 | A new quote has the given id and company and the line's conditions, exclusions and deductible. Its scope and limits fall back when the line's are empty. Its rate is empty, it is not recommended, all four amounts are zero, and its tax is consistent. |
| `Quotes.UnknownLineQuote` | app/page.tsx:291-309 | On an unknown line a new quote covers "All assets of the Insured" in "United Arab Emirates", with no clauses and no deductible. |
| `Quotes.ApplyEdit` | app/page.tsx:319-331 | The edited field takes the new value and no other field changes, except VAT and total. Those are recomputed from premium and policy fee when the edited field is one of the two, and left as they were otherwise. |
| `Quotes.EditKeepsTaxConsistent` | app/page.tsx:319-331 | Starting from a quote whose VAT and total match its amounts, every edit keeps them matching. |
| `Quotes.UpdateQuote` | app/page.tsx:319-331 | Only the quote at the index changes, and the list keeps its length. |
| `Quotes.ToggleCondition` | app/page.tsx:333-344 | Only the quote at the index changes, and within it only its conditions change. The toggled clause's membership flips and no other clause's membership changes. The new conditions are the `Toggle.Toggle` of the old ones, so a ticked clause is appended at the end and an unticked one is filtered out, with the other clauses kept in their order. |
| `Quotes.ToggleConditionTwice` | app/page.tsx:333-344 | Ticking and then unticking a clause that was off gives back the exact quotes. |
| `Reference.ZeroPad` | app/page.tsx:254-256 | The padded text is all digits and reads back as the number. It has the requested width when the number fits. |
| `Reference.ReferenceNumberShape` | app/page.tsx:251-258 | The result is 16 characters long for a four-digit year, a month 1-12, a day 1-31 and a suffix 0-9999. It decodes as `GI-`, the year, the two-digit month and day, `-`, and the four-digit suffix, giving back exactly those parts. |
| `Comparisons.Prepend` | app/page.tsx:377-379 | Saving puts the new comparison first, followed by the old history unchanged. |
| `Comparisons.NewestFirst` | app/page.tsx:377-379 | Two saves in a row list the later one first. |
| `Comparisons.DeleteById` | page.tsx:898-904 | No remaining entry has the id, and the history does not grow. |
| `Comparisons.DeleteKeepsOthers` | page.tsx:898-904 | Every comparison with another id survives deletion, with as many occurrences as before. |
| `Comparisons.DeleteAppend` | page.tsx:900 | Deletion works piecewise over concatenation, so the remaining entries keep their order. |
| `Comparisons.DeleteAbsent` | page.tsx:900 | Deleting an id that no entry has leaves the history unchanged. |
| `Comparisons.DeleteIdempotent` | page.tsx:898-904 | Deleting the same id twice is the same as deleting it once. |
| `Comparisons.DeleteSaved` | page.tsx:898-904 | Deleting a just-saved comparison's id also deletes any older entry with that id, and nothing else. |
| `Generator.FreshQuotes` | page.tsx:284-289 | The rebuilt quotes are the `createEmptyQuote` results for the companies, one per company, in company order, with the ids in call order. |
| `Generator.Regenerate` | page.tsx:284-289 | With a line chosen and a non-empty selection, the quotes become one fresh quote per selected insurer, in selection order. Otherwise nothing changes. Nothing but the quotes ever changes. |
| `Generator.ChooseLine` | page.tsx:275-289 | Choosing a new non-empty line offers and selects all of its insurers and rebuilds the quotes for them. Re-choosing the current line changes nothing. Choosing no line, or a line without insurers, keeps the quotes. Choosing no line changes only the line, as the insurer effect does nothing for an empty line. Any choice leaves the customer details, property limit and advisor comment untouched. |
| `Generator.ToggleCompany` | page.tsx:311-317 | Toggling an insurer flips its selection and leaves the others' selection alone. Only the selection and the quotes change. With a line chosen and a non-empty selection, the quotes are then fresh, one per selected insurer. The old quotes stay when the selection became empty, and also when no line is chosen; the insurer boxes stay on screen after the line is cleared. |
| `Generator.DeselectLastKeepsQuotes` | page.tsx:284-289 | Deselecting the only selected insurer empties the selection but leaves the previous quotes in place. |
| `Generator.SaveGate` | app/page.tsx:346-360 | The gate rejects a missing line first. With a line, it rejects a name that trims to empty. With a line and a name, it rejects an empty quote list. It passes exactly when none of these holds. |
| `Generator.NewComparison` | app/page.tsx:362-374 | The saved record carries the line's label, the form's customer fields, advisor comment and quotes, the stamp's id and date, and the reference number built from the stamp. |
| `Generator.Save` | app/page.tsx:346-406 | A rejected save reports the gate's reason and changes neither the form nor the history. A successful save prepends the new comparison to the history and resets the form. |
| `Generator.LineCheckedFirst` | app/page.tsx:347-350 | Without a line, a save is refused for that reason whatever else the form holds. |
| `Generator.BlankNameRejected` | app/page.tsx:352-355 | With a line chosen, any name made only of white space, including the empty name, is refused as missing, and the state is left unchanged. |
| `Generator.SaveThenDelete` | page.tsx:898-904 | Saving under a new id and then deleting that id gives back the earlier history. |
| `Tables.LayoutRow` | app/page.tsx:572-576 | A body row carries its number and caption, then one cell per quote, in quote order, each rendering that row's field of that quote. |
| `Tables.OptionalDetails` | app/page.tsx:539-559 | Address, business activity, location and property limit each appear exactly when non-empty, and nothing else appears: the length is the number of non-empty fields. They appear in that fixed order, each at most once. No empty detail line appears. |
| `Tables.Unbulleted` | app/page.tsx:585-602 | Reading bulleted items back yields one clause per item with the bullet stripped, or fails on an item without the bullet. |
| `Tables.BulletedRoundTrip` | app/page.tsx:585-602 | Reading back the bulleted list items gives the clauses. |
| `HtmlReport.CellOf` | app/page.tsx:573-633 | A cell carries the `recommended` class exactly when it is a recommended quote's total. |
| `HtmlReport.ComparisonTable` | app/page.tsx:563-571 | The header is "S.No.", "Particulars", then each quote's company in order, and the body is the ten comparison rows. |
| `HtmlReport.ComparisonRows` | app/page.tsx:571-633 | There are exactly ten rows numbered 1 to 10, with the captions in the page's order and one cell per quote. Only the Total cell of a recommended quote is marked. |
| `HtmlReport.ClauseCellsOf` | app/page.tsx:585-602 | The conditions and exclusions cells list the quote's clauses, each behind "• ", in stored order. |
| `HtmlReport.ReadCellOf` | app/page.tsx:573-633 | Each field the table shows can be read back from its cell. |
| `HtmlReport.TableShowsQuotes` | app/page.tsx:563-635 | Column k of the table reads back as quote k with only its id dropped. |
| `HtmlReport.FirstRecommended` | app/page.tsx:647 | `find` yields nothing exactly when no quote is recommended. Otherwise it yields the first recommended quote. |
| `HtmlReport.RecommendedOption` | app/page.tsx:647 | The summary shows "None marked" when no quote is recommended. Otherwise it shows the first recommended quote's company, or "None marked" if that company is empty. |
| `HtmlReport.SummaryNamesRecommended` | app/page.tsx:647 | With exactly one recommended quote, the summary names its company. |
| `HtmlReport.Render` | app/page.tsx:521-649 | The page's title is the line label. The page shows the reference and the first ten characters of the date. Customer details start with the name, or "N/A" for an empty name, followed by the optional details. The advisor comment appears exactly when it is non-empty. The summary counts the quotes and names the recommended option. |
| `Workbook.CellOf` | page.tsx:508-530 | Money fields are number cells in format `#,##0.00`, and every other field is a text cell. Only a recommended quote's total cell is highlighted. |
| `Workbook.ComparisonRows` | page.tsx:496-566 | There are exactly ten rows numbered 1 to 10. The eight detail rows come first, then Conditions/Extensions, then Main Exclusions, with one cell per quote. Rows 5-8 hold money numbers. Only the Total cell of a recommended quote is highlighted. |
| `Workbook.BuildSheet` | page.tsx:430-579 | The sheet has the title "<line> - Insurance Comparison", the reference line and the date cut to ten characters. Customer rows start with the name, followed by the optional details. The header is "S.No.", "Particulars", then each company. The advisor comment appears exactly when non-empty. |
| `Workbook.ClauseCellsOf` | page.tsx:536-566 | The conditions and exclusions cells are text cells holding the bulleted clauses joined by newlines, and they are not highlighted. |
| `Workbook.ClauseTextLines` | page.tsx:543-548 | With single-line clauses, the lines of a clause cell are exactly the bulleted list items of the HTML page. |
| `Workbook.WrittenBulletDiffers` | page.tsx:544 | As written, the cell for the clause "Riot" is "‚Ä¢ Riot", not "• Riot". |
| `Workbook.ReadCellOf` | page.tsx:508-566 | With single-line clauses, each field the worksheet shows can be read back from its cell. |
| `Workbook.SheetShowsQuotes` | page.tsx:496-566 | With single-line clauses, column k of the worksheet reads back as quote k with only its id dropped. |
| `Parity.ColumnsAgree` | page.tsx:479-566 | The HTML table and the worksheet have the same header, read back the same quote in each column, and make the same highlighting decision. |
| `Parity.ConditionLinesAgree` | page.tsx:536-548 | The worksheet's conditions cell holds, line by line, the HTML conditions list items. |
| `Parity.ExclusionLinesAgree` | page.tsx:553-565 | The worksheet's exclusions cell holds, line by line, the HTML exclusions list items. |
| `Text.SplitJoin` | page.tsx:544 | Splitting newline-joined single-line pieces gives the pieces back, empty pieces included. The one exception is a single empty piece: its text is empty, and empty text has no lines. |

## Left out

- React rendering and hook scheduling are not modelled.
  - Each handler is a function from the form before it to the form after its effects.
  - Consider re-choosing a line after clearing it: line A, then no line, then line A. If the selection was not toggled while A was chosen, the selection still holds the catalogue's own companies array. Re-choosing A sets that same array again, and React skips the quote rebuild. `Generator.ChooseLine` rebuilds in that case. If the selection was toggled, it holds a new array, and the source rebuilds too.
- `Generator.ChooseLine`: rebuilds the quotes whenever the line changes to a non-empty one. It ignores React's array-identity check described above.
- Persistence is not modelled: `localStorage` and JSON (de)serialisation. The history is an in-memory sequence.
- Dialogs are not modelled: `alert` and `confirm`. A delete is taken as confirmed.
- Downloads and the remote call are not modelled: Blob and anchor downloads, and `fetch('/api/generate-excel')`. Running the openpyxl script is not modelled either: fonts, fills other than the recommended highlight, borders, merged ranges, row heights, column widths and the output path.
- The quoting of the comparison JSON inside the Python source (page.tsx:411) is not modelled. It escapes only single quotes.
- Clocks and randomness are parameters, not modelled sources: `Math.random` ids, `new Date()`, `getFullYear`/`getMonth`/`getDate`.
- Date display formatting is not modelled: `toLocaleDateString` and `formatDate`.
- JavaScript floating point is not modelled. Amounts are whole fils.
- `Money.CalculateVat`: rounds exact fils halves away from zero. It does not reproduce `toFixed(2)` on binary floats, which can round a tie either way. Amounts with more than two decimals cannot be entered in the model.
- `Money.AmountRoundTrip`: covers the whole-fils amounts the model has. It does not cover JavaScript's exponent notation for very large or very small floats.
- `Quotes.ApplyEdit`: covers the seven edits the quote cards issue (recommended flag, scope, limits, deductible, rate, premium, policy fee). Other `keyof Quote` fields can be passed to `updateQuote` but never are.
- The `parseFloat(...) \|\| 0` coercion of typed amounts (app/page.tsx:870, 879) is not modelled. Premium and policy fee edits carry whole fils.
- `Catalog.GetLineDefaults`: models only the line identifiers the selector produces, plus the empty one. JavaScript's object lookup also finds inherited keys such as "constructor" or "toString". For those, the source returns a function instead of the fallback, and creating a quote would throw. The model treats such keys as unknown lines, and `Catalog.UnknownLine` and `Quotes.UnknownLineQuote` make no promise about them beyond that.
- `Quotes.UpdateQuote`: requires the index to be in range. The page only calls it with the index of a rendered card.
- `Quotes.ToggleCondition`: requires the index to be in range, for the same reason.
- `HtmlReport.Render`: keeps the line label as is. The page's `toUpperCase` of the title is not modelled.
- HTML escaping is not modelled: user text is interpolated raw into the page (app/page.tsx:538, 575), and no injection-safety property is stated.
- Presentation-only content is not modelled: the branding page, CSS, the completion page and the history cards' truncation.
- `Workbook.SheetShowsQuotes`: requires single-line clauses. A clause containing a newline cannot be told apart from two clauses once the cell joins them with newlines. That the catalogue's own clauses are single-line is not proved.
- `Workbook.CellOf`: always writes money as numbers. The script's `isinstance` test (page.tsx:516) falls back to text only for non-numbers, which the model's quotes never hold.
- The saved comparison's never-set `fileUrl` field is not modelled.
- The worksheet differs from the HTML page in three ways:
  - The worksheet shows an empty customer name where the page shows "N/A". The model follows the code.
  - The title is not upper-cased. The model follows the code.
  - The bullet differs; see Findings. Here the worksheet members follow the corrected script.
- `Workbook.CellOf`: fills the clause cells with the intended "• " bullet (`Workbook.ClauseText`), not the "‚Ä¢ " the script's source holds (page.tsx:544, 561). The same holds for `Workbook.ClauseCellsOf`, `Workbook.ComparisonRows`, `Workbook.BuildSheet`, `Workbook.ReadCellOf`, `Workbook.SheetShowsQuotes` and the three `Parity` lemmas: they describe the corrected worksheet. The as-written bullet is modelled only by `Workbook.ClauseTextAsWritten` and `Workbook.WrittenBulletDiffers`.

## Findings

| source | as written | input that shows it | evidently intended | confidence | as-written member | corrected member |
|---|---|---|---|---|---|---|
| page.tsx:544 | The worksheet script writes each condition as `f"‚Ä¢ {c}"`. Its bullet is the UTF-8 bytes of "•" read as Mac OS Roman (U+201A U+00C4 U+00A2). Line 561 does the same for exclusions. | The clause list `["Riot"]` gives the cell text "‚Ä¢ Riot". | "• Riot", the same item the HTML page lists (app/page.tsx:588) | not executed | `Workbook.WrittenBulletDiffers` (about `Workbook.ClauseTextAsWritten`) | `Workbook.ClauseText`, whose lines are proved equal to the HTML list items by `Workbook.ClauseTextLines` |

=== FILE: catalog.dfy ===
/** The product catalogue: the seven insurance lines offered in the line
    selector, and for each the insurers writing it and the standard wording
    a new quote starts from (`INSURANCE_LINES`, `INSURANCE_DEFAULTS`,
    `getInsuranceCompanies`, `getLineDefaults`). */
module Catalog {
  import opened Wrappers
  import opened Seqs

  /** One option of the line selector: its identifier and the label shown for it. */
  datatype Line = Line(value: string, caption: string)

  /** The standard terms of a line. */
  datatype LineDefaults = LineDefaults(
    companies: seq<string>,
    scopeOfCover: string,
    geographicalLimits: string,
    conditions: seq<string>,
    exclusions: seq<string>,
    deductible: string
  )

  const InsuranceLines: seq<Line> := [
    Line("sme", "SME PACKAGE (PAR + TPL + WC EL)"),
    Line("par", "PAR - Property All Risk Insurance"),
    Line("tpl", "TPL - Third Party Liability Insurance"),
    Line("wcel", "WC EL - Workmen's Compensation and Employer's Liability"),
    Line("car", "CAR - Contractor's All Risk"),
    Line("cpm", "CPM - Contractor's Plant and Machinery Insurance"),
    Line("glpa", "GLPA - Group Life and Personal Accident Insurance")
  ]

  /** The geographical limit every quote falls back to. */
  const DefaultGeographicalLimits: string := "United Arab Emirates"

  /** Standard terms by line identifier. */
  type Catalogue = map<string, LineDefaults>

  /** The application's catalogue (`INSURANCE_DEFAULTS`). The lookups and the
      page below are stated for any catalogue and used with this one. */
  const InsuranceDefaults: Catalogue := map[
    "sme" := LineDefaults(
      companies := ["AIG", "RSA"],
      scopeOfCover := "All assets of the Insured or property in the care, custody and control of the Insured or for which they hold themselves responsible in accordance with the Specification attaching hereto. This policy will indemnify the Insured for accidental physical loss of or damage to the Property Insured whilst situate at, in or on any Location",
      geographicalLimits := "United Arab Emirates",
      conditions := [
        "Including Legal and defense Costs cover. Any other type of accidental loss in our premises",
        "Workmen's Compensation as per UAE Labor Law / Employer's Liability as per Common and/or Sharia Law",
        "72 Hours Clause",
        "Reinstatement Value Clause",
        "Debris Removal Clause - Limited to 10% of Claim amount",
        "Including loss due to Riot, Strike and Civil Commotion",
        "Including fire explosion lightning, earthquake",
        "Storm, Flood, Tempest, Sand Storm"
      ],
      exclusions := [
        "War Risks, Pollution Risk, Nuclear Risk",
        "Coronavirus exclusion - Communicable disease exclusion",
        "Property being worked upon",
        "Pure Financial Loss/ Consequential Loss"
      ],
      deductible := "As per policy terms"
    ),
    "par" := LineDefaults(
      companies := ["IH", "DNIRC", "RSA", "Orient UNB"],
      scopeOfCover := "All assets of the Insured or property in the care, custody and control of the Insured or for which they hold themselves responsible in accordance with the Specification attaching hereto. This policy will indemnify the Insured for accidental physical loss of or damage to the Property Insured whilst situate at, in or on any Location",
      geographicalLimits := "United Arab Emirates",
      conditions := [
        "72 Hours Clause",
        "Reinstatement Value Clause",
        "Debris Removal Clause - Limited to 10% of Claim amount",
        "Including loss due to Riot, Strike and Civil Commotion",
        "Including fire explosion lightning, earthquake",
        "Storm, Flood, Tempest, Sand Storm",
        "Riot, Strike, Civil Commotion and labour or political disturbances"
      ],
      exclusions := [
        "War Risks, Pollution Risk, Nuclear Risk",
        "Coronavirus exclusion - Communicable disease exclusion",
        "Property being worked upon",
        "Principals existing & surrounding properties",
        "Any offshore works / works on ships etc.",
        "Pure Financial Loss/ Consequential Loss"
      ],
      deductible := "AED 2,500/- each and every loss\nFirst 3 days each and every loss in respect of loss of rent"
    ),
    "tpl" := LineDefaults(
      companies := ["Sukoon", "IH", "AIG", "UNION"],
      scopeOfCover := "To indemnify the insured against all sums up to the limit of indemnity specified under the policy which the insured shall become legally liable to pay as damages in respect of accidental bodily injury to any third party or to any third party property damage happening during the period of insurance arising out of their normal course of business activity anywhere within UAE",
      geographicalLimits := "United Arab Emirates",
      conditions := [
        "Tennent's liability",
        "Cross Liability Clause",
        "Including liability arising from bodily injury",
        "Including liability arising from Fire and/or explosion",
        "Including pollution caused by accidental and sudden discharge",
        "Including Tenants Liability up to the policy limits",
        "Legal & Defense costs included within the Limits of Indemnity",
        "Waiver of subrogation against insured parties"
      ],
      exclusions := [
        "War Risks, Pollution Risk, Nuclear Risk",
        "Coronavirus exclusion - Communicable disease exclusion",
        "Professional Liability",
        "Contractual Liability",
        "Product Liability (unless specified)"
      ],
      deductible := "AED 1,000/- each and every claim"
    ),
    "wcel" := LineDefaults(
      companies := ["AWNIC", "Sukoon", "ORIENT", "AIG"],
      scopeOfCover := "Workmen's Compensation as per UAE Labor Law / Employer's Liability as per Common and/or Sharia Law : Occurrence Form",
      geographicalLimits := "United Arab Emirates",
      conditions := [
        "Repatriation Expenses - AED 35,000 per person including accompanying person",
        "Employer's Liability with a limit of AED 1,000,000/- AOO",
        "Defense costs within limits",
        "Including 24 hours non-work related accidents",
        "Including transportation of employees to and from work place",
        "Including work during overtime and public holidays",
        "Including Sunstroke and Hernia resulting from work related activities",
        "Employee to Employee Liability Clause",
        "Accidental Medical Expenses - AED 50,000/- per person"
      ],
      exclusions := [
        "War Risks, Pollution Risk, Nuclear Risk",
        "Coronavirus exclusion - Communicable disease exclusion",
        "Any offshore works / works on ships etc.",
        "Pure Financial Loss/ Consequential Loss"
      ],
      deductible := "As per policy terms"
    ),
    "car" := LineDefaults(
      companies := ["Sukoon", "AWNIC", "ORIENT", "UNION"],
      scopeOfCover := "Combined single limit for Death/Bodily injury and TPPD as per Munich Re Contractor's All Risks Policy wordings",
      geographicalLimits := "United Arab Emirates",
      conditions := [
        "Cover for Cross Liability - (Mre 002)",
        "Extended Maintenance Cover: 6 months (Mre 004)",
        "Cover for Extra Charges for Overtime, Night work, Express Freight: upto 5% (Mre 006)",
        "Special conditions concerning Underground Cables, Pipes & other facilities-Mre102",
        "Warranty Concerning Construction Material - (Mre 009)",
        "Safety Measures with respect to flood and inundation - (Mre 110)",
        "Cover for Vibration, Removal or Weakening of Support upto AED 500,000/-",
        "Fire Fighting Facilities & Fire Safety on Construction Sites",
        "Professional Fees Clause - Upto 5% of the Claim Amount",
        "Debris Removal Clause - Upto 10% of the Claim Amount"
      ],
      exclusions := [
        "War Risks, Pollution Risk, Nuclear Risk",
        "Existing structures and surrounding properties",
        "Design errors and defects",
        "Pure Financial Loss/ Consequential Loss"
      ],
      deductible := "As per project specifications"
    ),
    "cpm" := LineDefaults(
      companies := ["AWNIC", "IH", "DNIRC", "NGI"],
      scopeOfCover := "Contractors Plant & Equipment against any unforeseen and sudden physical loss or damage from any cause not specifically excluded under the Policy. As per Standard policy wording of Munich re.",
      geographicalLimits := "United Arab Emirates",
      conditions := [
        "Cover extended to include Tool of Trade Extension up to a limit of AED 1,000,000/-",
        "Debris Removal 10% of the claim Amount subject to maximum AED 100,000/-",
        "Extended to cover Riot & Strike, civil Commotion",
        "Inland Transit Clause - Including Loading and Unloading",
        "Cover of Any extra charges incurred overtime, night work, work on public holidays",
        "Coverage for loading / unloading / dismantling / Erection / commissioning & testing",
        "Including loss or damage due to Fire, Lightning, explosion, storm and tempest",
        "Temporary removal - Limit 10% of Sum Insured"
      ],
      exclusions := [
        "War Risks, Pollution Risk, Nuclear Risk",
        "Coronavirus exclusion - Communicable disease exclusion",
        "Mechanical or electrical breakdown (unless Breakdown cover included)",
        "Normal wear and tear"
      ],
      deductible := "As per policy terms"
    ),
    "glpa" := LineDefaults(
      companies := ["ABNIC", "ALLIANCE", "ORIENT", "UNION"],
      scopeOfCover := "To indemnify the Assured in respect of Group Life and Personal Accident benefits arising from Death due to any cause and Disability due to accident & sickness occurring during the policy period",
      geographicalLimits := "24 hours Worldwide Cover On and Off duty",
      conditions := [
        "24 hours Worldwide Cover On and Off duty",
        "Death Benefit: 100% of the sum insured",
        "Permanent Total Disability: 100% of the sum insured",
        "Permanent Partial Disability: Based on continental scale of benefits",
        "Temporary Total Disability: 100% weekly basic salary upto 52 weeks",
        "Medical Expenses: Covered upto AED 20,000",
        "Repatriation of Mortal Remains: Covered upto AED 20,000",
        "Funeral Expenses: Covered"
      ],
      exclusions := [
        "Pre-existing conditions",
        "Self-inflicted injuries",
        "Nuclear weapons or devices or chemical or biological & mass destruction",
        "Active participation in war, civil war, terrorism & related political risk",
        "Offshore Risk"
      ],
      deductible := "NIL"
    )
  ]

  /** What `getLineDefaults` answers for an identifier the catalogue does not
      know: no insurers and empty wording, except the geographical limit. */
  const UnknownLineDefaults: LineDefaults :=
    LineDefaults([], "", DefaultGeographicalLimits, [], [], "")

  /** `getLineDefaults(line)`: the catalogue entry, or the fallback. */
  function GetLineDefaults(catalogue: Catalogue, line: string): LineDefaults {
    if line in catalogue then catalogue[line] else UnknownLineDefaults
  }

  /** `getInsuranceCompanies(line)`: `INSURANCE_DEFAULTS[line]?.companies || []`. */
  function GetInsuranceCompanies(catalogue: Catalogue, line: string): seq<string> {
    (if line in catalogue then Some(catalogue[line].companies) else None).GetOr([])
  }

  /** Every field of the fallback is empty, except the geographical limit,
      which is "United Arab Emirates"; no insurer is offered. */
  lemma UnknownLine(catalogue: Catalogue, line: string)
    requires line !in catalogue
    ensures GetInsuranceCompanies(catalogue, line) == []
    ensures var d := GetLineDefaults(catalogue, line);
      && d.companies == [] && d.conditions == [] && d.exclusions == []
      && d.scopeOfCover == "" && d.deductible == ""
      && d.geographicalLimits == "United Arab Emirates"
  {
  }

  /** The two lookups agree: the insurers offered for a line are those of
      its defaults, known or not. */
  lemma CompaniesAgree(catalogue: Catalogue, line: string)
    ensures GetInsuranceCompanies(catalogue, line) == GetLineDefaults(catalogue, line).companies
  {
  }

  /** The first caption whose option value is `value`, if any. */
  function FindCaption(lines: seq<Line>, value: string): (r: Option<string>)
    ensures r.None? <==> forall k :: 0 <= k < |lines| ==> lines[k].value != value
    ensures r.Some? ==> exists k :: && 0 <= k < |lines| && lines[k].value == value
                                    && r.value == lines[k].caption
                                    && forall j :: 0 <= j < k ==> lines[j].value != value
  {
    if lines == [] then None
    else if lines[0].value == value then Some(lines[0].caption)
    else
      var r := FindCaption(lines[1..], value);
      assert forall k :: 1 <= k < |lines| ==> lines[k] == lines[1..][k - 1];
      r
  }

  /** The label a saved comparison records for its line:
      `INSURANCE_LINES.find(il => il.value === line)?.label || line`. */
  function LineLabel(lines: seq<Line>, line: string): string {
    var found := FindCaption(lines, line);
    if found.Some? && found.value != "" then found.value else line
  }

  /** What every catalogue entry satisfies: at least one insurer, none
      twice, and a geographical limit. */
  predicate WellFormedDefaults(d: LineDefaults) {
    && |d.companies| > 0 && NoDuplicates(d.companies)
    && d.geographicalLimits != ""
  }

  /** The catalogue describes exactly the selectable lines. */
  lemma CatalogCoversLines()
    ensures forall k :: 0 <= k < |InsuranceLines| ==> InsuranceLines[k].value in InsuranceDefaults
    ensures forall line :: line in InsuranceDefaults ==> FindCaption(InsuranceLines, line).Some?
  {
  }

  /** Every catalogue entry is well formed. */
  lemma CatalogEntriesWellFormed()
    ensures forall line :: line in InsuranceDefaults ==> WellFormedDefaults(InsuranceDefaults[line])
  {
    assert InsuranceDefaults.Keys == {"sme", "par", "tpl", "wcel", "car", "cpm", "glpa"};
  }

  /** Options no two of which share an identifier, each with a caption. */
  predicate WellFormedLines(lines: seq<Line>) {
    && (forall i, j :: 0 <= i < j < |lines| ==> lines[i].value != lines[j].value)
    && (forall k :: 0 <= k < |lines| ==> lines[k].caption != "")
  }

  /** The selector's options are well formed. */
  lemma LinesWellFormed()
    ensures WellFormedLines(InsuranceLines)
  {
  }

  /** Among well-formed options, a listed line is labelled with its caption;
      anything else keeps its raw identifier. */
  lemma LineLabelResolves(lines: seq<Line>, line: string)
    requires WellFormedLines(lines)
    ensures forall k :: 0 <= k < |lines| && lines[k].value == line ==> LineLabel(lines, line) == lines[k].caption
    ensures (forall k :: 0 <= k < |lines| ==> lines[k].value != line) ==> LineLabel(lines, line) == line
  {
  }
}

=== FILE: comparison.dfy ===
/** A saved comparison (`SavedComparison`) and the history list the
    application keeps of them, newest first: `saveComparison` prepends
    (`history.unshift`), `deleteComparison` filters out an id. */
module Comparisons {
  import opened Quotes

  /** A saved comparison. `insuranceLine` holds the line's label, not its
      identifier; the optional fields are empty strings when not given. */
  datatype Comparison = Comparison(
    id: string,
    date: string,
    insuranceLine: string,
    customerName: string,
    quotes: seq<Quote>,
    advisorComment: string,
    referenceNumber: string,
    address: string,
    businessActivity: string,
    location: string,
    propertyLimit: string
  )

  /** `history.unshift(comparison)`: the new comparison first, then the old
      history unchanged. */
  function Prepend(history: seq<Comparison>, c: Comparison): (r: seq<Comparison>)
    ensures |r| == |history| + 1 && r[0] == c && r[1..] == history
  {
    [c] + history
  }

  /** Two saves in a row list the later one first. */
  lemma NewestFirst(history: seq<Comparison>, a: Comparison, b: Comparison)
    ensures Prepend(Prepend(history, a), b) == [b, a] + history
  {
  }

  /** `history.filter(c => c.id !== id)`. */
  function DeleteById(history: seq<Comparison>, id: string): (r: seq<Comparison>)
    ensures forall k :: 0 <= k < |r| ==> r[k].id != id
    ensures |r| <= |history|
  {
    if history == [] then []
    else
      var rest := DeleteById(history[1..], id);
      if history[0].id == id then rest else [history[0]] + rest
  }

  /** A comparison with another id survives deletion as often as it occurred. */
  lemma {:induction false} DeleteKeepsOthers(history: seq<Comparison>, id: string, c: Comparison)
    requires c.id != id
    ensures multiset(DeleteById(history, id))[c] == multiset(history)[c]
    ensures c in DeleteById(history, id) <==> c in history
    decreases |history|
  {
    if history != [] {
      assert history == [history[0]] + history[1..];
      DeleteKeepsOthers(history[1..], id, c);
    }
  }

  /** Deletion works piecewise, so the remaining entries keep their order. */
  lemma {:induction false} DeleteAppend(a: seq<Comparison>, b: seq<Comparison>, id: string)
    ensures DeleteById(a + b, id) == DeleteById(a, id) + DeleteById(b, id)
    decreases |a|
  {
    if a == [] {
      assert a + b == b;
    } else {
      assert (a + b)[1..] == a[1..] + b;
      DeleteAppend(a[1..], b, id);
    }
  }

  /** Deleting an id no entry carries leaves the history unchanged. */
  lemma {:induction false} DeleteAbsent(history: seq<Comparison>, id: string)
    requires forall k :: 0 <= k < |history| ==> history[k].id != id
    ensures DeleteById(history, id) == history
    decreases |history|
  {
    if history != [] {
      DeleteAbsent(history[1..], id);
    }
  }

  /** Deleting twice is deleting once. */
  lemma DeleteIdempotent(history: seq<Comparison>, id: string)
    ensures DeleteById(DeleteById(history, id), id) == DeleteById(history, id)
  {
    DeleteAbsent(DeleteById(history, id), id);
  }

  /** Deleting a just-saved comparison by its id also removes any older
      entry sharing that id, and nothing else. */
  lemma DeleteSaved(history: seq<Comparison>, c: Comparison)
    ensures DeleteById(Prepend(history, c), c.id) == DeleteById(history, c.id)
  {
  }
}

=== FILE: decimal.dfy ===
/** Decimal rendering of natural numbers, as JavaScript's `String(n)` and
    `padStart(width, '0')` produce it, and the parser that reads it back. */
module Decimal {

  function Digit(d: nat): (c: char)
    requires d < 10
    ensures '0' <= c <= '9' && DigitValue(c) == d
  {
    (48 + d) as char
  }

  function DigitValue(c: char): (d: nat)
    requires '0' <= c <= '9'
    ensures d < 10
  {
    c as int - 48
  }

  predicate IsDigit(c: char) {
    '0' <= c <= '9'
  }

  predicate AllDigits(s: string) {
    forall i :: 0 <= i < |s| ==> IsDigit(s[i])
  }

  /** `String(n)` for a non-negative integer: no leading zeros, "0" for zero. */
  function NatToDigits(n: nat): (r: string)
    ensures |r| >= 1 && AllDigits(r)
    ensures r[0] == '0' ==> n == 0
    decreases n
  {
    if n < 10 then [Digit(n)] else NatToDigits(n / 10) + [Digit(n % 10)]
  }

  /** The value of a string of decimal digits, most significant first. */
  function DigitsValue(s: string): nat
    requires AllDigits(s)
  {
    if s == [] then 0
    else DigitsValue(s[..|s| - 1]) * 10 + DigitValue(s[|s| - 1])
  }

  /** `s.padStart(width, pad)`: prefixes `pad` until `s` is `width` long. */
  function PadStart(s: string, width: nat, pad: char): (r: string)
    ensures |r| == if |s| < width then width else |s|
    ensures r[|r| - |s|..] == s
    ensures forall i :: 0 <= i < |r| - |s| ==> r[i] == pad
  {
    if |s| >= width then s else Repeat(pad, width - |s|) + s
  }

  /** `k` copies of `c`. */
  function Repeat(c: char, k: nat): (r: string)
    ensures |r| == k && forall i :: 0 <= i < k ==> r[i] == c
  {
    if k == 0 then "" else [c] + Repeat(c, k - 1)
  }

  function Pow10(k: nat): (p: nat)
    ensures p >= 1
  {
    if k == 0 then 1 else 10 * Pow10(k - 1)
  }

  /** Reading back `String(n)` gives `n`. */
  lemma {:induction false} DigitsRoundTrip(n: nat)
    ensures DigitsValue(NatToDigits(n)) == n
    decreases n
  {
    if n >= 10 {
      DigitsRoundTrip(n / 10);
      var s := NatToDigits(n);
      assert s[..|s| - 1] == NatToDigits(n / 10);
    }
  }

  /** Leading zeros do not change the value. */
  lemma {:induction false} LeadingZero(s: string)
    requires AllDigits(s)
    ensures AllDigits("0" + s) && DigitsValue("0" + s) == DigitsValue(s)
    decreases |s|
  {
    var t := "0" + s;
    if s != [] {
      assert t[..|t| - 1] == "0" + s[..|s| - 1];
      LeadingZero(s[..|s| - 1]);
    }
  }

  /** Any number of leading zeros leaves the value unchanged. */
  lemma {:induction false} LeadingZeros(k: nat, s: string)
    requires AllDigits(s)
    ensures AllDigits(Repeat('0', k) + s)
    ensures DigitsValue(Repeat('0', k) + s) == DigitsValue(s)
    decreases k
  {
    if k > 0 {
      LeadingZeros(k - 1, s);
      var t := Repeat('0', k - 1) + s;
      LeadingZero(t);
      assert Repeat('0', k) + s == "0" + t;
    } else {
      assert Repeat('0', k) + s == s;
    }
  }

  /** Zero-padding a digit string keeps its value. */
  lemma PadZerosValue(s: string, width: nat)
    requires AllDigits(s)
    ensures AllDigits(PadStart(s, width, '0'))
    ensures DigitsValue(PadStart(s, width, '0')) == DigitsValue(s)
  {
    if |s| < width {
      LeadingZeros(width - |s|, s);
    }
  }

  /** `String(n)` has at most `k` digits when `n < 10^k`. */
  lemma {:induction false} DigitsAtMost(n: nat, k: nat)
    requires k >= 1 && n < Pow10(k)
    ensures |NatToDigits(n)| <= k
    decreases k
  {
    if n >= 10 {
      assert k >= 2;
      DigitsAtMost(n / 10, k - 1);
    }
  }

  /** `String(n)` has at least `k` digits when `n >= 10^(k-1)`. */
  lemma {:induction false} DigitsAtLeast(n: nat, k: nat)
    requires k >= 1 && n >= Pow10(k - 1)
    ensures |NatToDigits(n)| >= k
    decreases k
  {
    if k >= 2 {
      DigitsAtLeast(n / 10, k - 1);
    }
  }
}

=== FILE: generator.dfy ===
/** The quote generator page as a state machine: the form fields, the two
    effects that pick insurers for a line and rebuild the quotes from the
    selection, the insurer toggle, and `saveComparison` with its ordered
    validation gate. React scheduling is not modelled: each handler is a
    function from the old form to the form after its effects have run. */
module Generator {
  import opened Wrappers
  import Text
  import Catalog
  import Toggle
  import Reference
  import opened Quotes
  import opened Comparisons

  /** The page's state (its `useState` hooks). */
  datatype Form = Form(
    insuranceLine: string,
    customerName: string,
    address: string,
    businessActivity: string,
    location: string,
    propertyLimit: string,
    advisorComment: string,
    availableCompanies: seq<string>,
    selectedCompanies: seq<string>,
    quotes: seq<Quote>
  )

  /** The initial state, and the state `resetForm` restores. */
  const EmptyForm: Form := Form("", "", "", "", "", "", "", [], [], [])

  /** `selectedCompanies.map(createEmptyQuote)`: one fresh quote per
      company, in order; the `k`-th `generateId()` call yields `ids(k)`. */
  function FreshQuotes(catalogue: Catalog.Catalogue, line: string, companies: seq<string>, ids: nat -> string): (r: seq<Quote>)
    ensures |r| == |companies|
    ensures forall k :: 0 <= k < |r| ==> r[k] == CreateEmptyQuote(catalogue, line, companies[k], ids(k))
  {
    if companies == [] then []
    else [CreateEmptyQuote(catalogue, line, companies[0], ids(0))] + FreshQuotes(catalogue, line, companies[1..], (k: nat) => ids(k + 1))
  }

  /** The effect on `selectedCompanies`: with a line chosen and at least one
      insurer selected, the quotes are rebuilt as one fresh quote per
      selected insurer, in selection order, discarding every edit; otherwise
      they stay as they are. */
  function Regenerate(catalogue: Catalog.Catalogue, f: Form, ids: nat -> string): (r: Form)
    ensures r.(quotes := f.quotes) == f
    ensures f.insuranceLine != "" && |f.selectedCompanies| > 0 ==>
      && |r.quotes| == |f.selectedCompanies|
      && forall k :: 0 <= k < |r.quotes| ==>
           r.quotes[k] == CreateEmptyQuote(catalogue, f.insuranceLine, f.selectedCompanies[k], ids(k))
    ensures f.insuranceLine == "" || f.selectedCompanies == [] ==> r == f
  {
    if f.insuranceLine != "" && |f.selectedCompanies| > 0 then
      f.(quotes := FreshQuotes(catalogue, f.insuranceLine, f.selectedCompanies, ids))
    else
      f
  }

  /** Choosing a line in the selector (`setInsuranceLine`), followed by the
      effect on `insuranceLine`, which offers and selects every insurer of
      the line, and the effect on the selection, which rebuilds the quotes.
      Choosing the line already chosen changes nothing. */
  function ChooseLine(catalogue: Catalog.Catalogue, f: Form, line: string, ids: nat -> string): (r: Form)
    ensures line == f.insuranceLine ==> r == f
    ensures r.insuranceLine == line
    ensures line != f.insuranceLine && line != "" ==>
      && r.availableCompanies == Catalog.GetInsuranceCompanies(catalogue, line)
      && r.selectedCompanies == Catalog.GetInsuranceCompanies(catalogue, line)
    ensures line != f.insuranceLine && line != "" && Catalog.GetInsuranceCompanies(catalogue, line) != [] ==>
      && |r.quotes| == |r.selectedCompanies|
      && forall k :: 0 <= k < |r.quotes| ==>
           r.quotes[k] == CreateEmptyQuote(catalogue, line, r.selectedCompanies[k], ids(k))
    ensures line == "" || Catalog.GetInsuranceCompanies(catalogue, line) == [] ==> r.quotes == f.quotes
    ensures line == "" ==> r == f.(insuranceLine := "")
    ensures r.(insuranceLine := f.insuranceLine, availableCompanies := f.availableCompanies,
               selectedCompanies := f.selectedCompanies, quotes := f.quotes) == f
  {
    if line == f.insuranceLine then f
    else if line == "" then f.(insuranceLine := line)
    else
      var companies := Catalog.GetInsuranceCompanies(catalogue, line);
      Regenerate(catalogue, f.(insuranceLine := line, availableCompanies := companies, selectedCompanies := companies), ids)
  }

  /** `handleCompanyToggle(company)` followed by the effect on the selection. */
  function ToggleCompany(catalogue: Catalog.Catalogue, f: Form, company: string, ids: nat -> string): (r: Form)
    ensures company in r.selectedCompanies <==> company !in f.selectedCompanies
    ensures forall c :: c != company ==> (c in r.selectedCompanies <==> c in f.selectedCompanies)
    ensures r.(quotes := f.quotes) == f.(selectedCompanies := Toggle.Toggle(f.selectedCompanies, company))
    ensures f.insuranceLine != "" && r.selectedCompanies != [] ==>
      && |r.quotes| == |r.selectedCompanies|
      && forall k :: 0 <= k < |r.quotes| ==>
           r.quotes[k] == CreateEmptyQuote(catalogue, f.insuranceLine, r.selectedCompanies[k], ids(k))
    ensures r.selectedCompanies == [] ==> r.quotes == f.quotes
    ensures f.insuranceLine == "" ==> r.quotes == f.quotes
  {
    Regenerate(catalogue, f.(selectedCompanies := Toggle.Toggle(f.selectedCompanies, company)), ids)
  }

  /** Deselecting the last selected insurer leaves the previous quotes in
      place: the selection is empty but the quotes are not rebuilt. */
  lemma DeselectLastKeepsQuotes(catalogue: Catalog.Catalogue, f: Form, ids: nat -> string)
    requires |f.selectedCompanies| == 1
    ensures ToggleCompany(catalogue, f, f.selectedCompanies[0], ids).selectedCompanies == []
    ensures ToggleCompany(catalogue, f, f.selectedCompanies[0], ids).quotes == f.quotes
  {
  }

  /** Why `saveComparison` refuses to save. */
  datatype SaveError = MissingLine | MissingCustomerName | NoQuotes

  /** The validation gate of `saveComparison`, checked in order: a line must
      be chosen, the customer name must not be blank once trimmed, and there
      must be at least one quote. */
  function SaveGate(f: Form): (r: Option<SaveError>)
    ensures r == Some(MissingLine) <==> f.insuranceLine == ""
    ensures r == Some(MissingCustomerName) <==> f.insuranceLine != "" && Text.IsBlank(f.customerName)
    ensures r == Some(NoQuotes) <==>
      f.insuranceLine != "" && !Text.IsBlank(f.customerName) && f.quotes == []
    ensures r == None <==>
      f.insuranceLine != "" && !Text.IsBlank(f.customerName) && f.quotes != []
  {
    if f.insuranceLine == "" then Some(MissingLine)
    else if Text.Trim(f.customerName) == "" then Some(MissingCustomerName)
    else if |f.quotes| == 0 then Some(NoQuotes)
    else None
  }

  /** What `saveComparison` takes from the clock and the random source: the
      new comparison's id, the ISO time stamp, the calendar date and the
      reference number's random suffix. */
  datatype Stamp = Stamp(id: string, date: string, year: nat, month: nat, day: nat, random: nat)

  /** The comparison `saveComparison` records for form `f`. */
  function NewComparison(f: Form, stamp: Stamp): (c: Comparison)
    ensures c.id == stamp.id && c.date == stamp.date
    ensures c.insuranceLine == Catalog.LineLabel(Catalog.InsuranceLines, f.insuranceLine)
    ensures && c.customerName == f.customerName && c.address == f.address
            && c.businessActivity == f.businessActivity && c.location == f.location
            && c.propertyLimit == f.propertyLimit && c.advisorComment == f.advisorComment
    ensures c.quotes == f.quotes
    ensures c.referenceNumber == Reference.ReferenceNumber(stamp.year, stamp.month, stamp.day, stamp.random)
  {
    Comparison(
      id := stamp.id,
      date := stamp.date,
      insuranceLine := Catalog.LineLabel(Catalog.InsuranceLines, f.insuranceLine),
      customerName := f.customerName,
      quotes := f.quotes,
      advisorComment := f.advisorComment,
      referenceNumber := Reference.ReferenceNumber(stamp.year, stamp.month, stamp.day, stamp.random),
      address := f.address,
      businessActivity := f.businessActivity,
      location := f.location,
      propertyLimit := f.propertyLimit
    )
  }

  /** The page's form together with the saved history, newest first. */
  datatype State = State(form: Form, history: seq<Comparison>)

  /** What a save attempt did. */
  datatype Outcome = Rejected(reason: SaveError) | Saved(comparison: Comparison)

  datatype SaveResult = SaveResult(outcome: Outcome, state: State)

  /** `saveComparison()`: a rejected save leaves form and history as they
      were; a successful one records the comparison at the head of the
      history and resets the form. */
  function Save(s: State, stamp: Stamp): (r: SaveResult)
    ensures r.outcome.Rejected? <==> SaveGate(s.form).Some?
    ensures r.outcome.Rejected? ==> r.outcome.reason == SaveGate(s.form).value && r.state == s
    ensures r.outcome.Saved? ==>
      && r.state.history == [r.outcome.comparison] + s.history
      && r.state.form == EmptyForm
      && r.outcome.comparison == NewComparison(s.form, stamp)
  {
    match SaveGate(s.form)
    case Some(e) => SaveResult(Rejected(e), s)
    case None =>
      var c := NewComparison(s.form, stamp);
      SaveResult(Saved(c), State(EmptyForm, Prepend(s.history, c)))
  }

  /** Whatever else the form holds, a form without a line is always refused
      for that reason first. */
  lemma LineCheckedFirst(s: State, stamp: Stamp)
    requires s.form.insuranceLine == ""
    ensures Save(s, stamp) == SaveResult(Rejected(MissingLine), s)
  {
  }

  /** A name of white space only (spaces, tabs, line breaks, ...) counts as
      missing. */
  lemma BlankNameRejected(s: State, stamp: Stamp)
    requires s.form.insuranceLine != "" && Text.IsBlank(s.form.customerName)
    ensures Save(s, stamp) == SaveResult(Rejected(MissingCustomerName), s)
  {
  }

  /** Deleting a comparison right after a save the gate lets through, when
      its id was new, gives back the history from before the save. */
  lemma SaveThenDelete(s: State, stamp: Stamp)
    requires s.form.insuranceLine != "" && !Text.IsBlank(s.form.customerName) && s.form.quotes != []
    requires forall k :: 0 <= k < |s.history| ==> s.history[k].id != stamp.id
    ensures DeleteById(Save(s, stamp).state.history, stamp.id) == s.history
  {
    var c := NewComparison(s.form, stamp);
    DeleteSaved(s.history, c);
    DeleteAbsent(s.history, stamp.id);
  }
}

=== FILE: html.dfy ===
/** The printable comparison page `downloadComparison` writes in the
    application with the HTML download: the customer details, the
    ten-row comparison table with one column per quote, the advisor's
    comment and the summary. Markup, styling and the branding page are not
    modelled; a cell is its text (or its list items) and whether it carries
    the `recommended` class. */
module HtmlReport {
  import opened Wrappers
  import Text
  import opened Money
  import opened Quotes
  import opened Comparisons
  import opened Tables

  /** The body rows of the table, in order. */
  const Layout: seq<RowSpec> := [
    RowSpec("Scope of Cover", ScopeOfCover),
    RowSpec("Geographical Limits", GeographicalLimits),
    RowSpec("Conditions/Extensions", Conditions),
    RowSpec("Main Exclusions", Exclusions),
    RowSpec("Deductible", Deductible),
    RowSpec("Premium Rate", PremiumRate),
    RowSpec("Premium (AED)", Premium),
    RowSpec("Policy Fee (AED)", PolicyFee),
    RowSpec("VAT (5%)", Vat),
    RowSpec("Total (AED)", Total)
  ]

  /** A `<td>`: its text and whether it has class `recommended`, or a
      `<ul>` of list items. */
  datatype Cell = Cell(text: string, recommended: bool) | ListCell(items: seq<string>)

  predicate IsRecommendedCell(c: Cell) {
    c.Cell? && c.recommended
  }

  /** The currency tag in front of the VAT and total amounts. */
  function AmountPrefix(f: Field): string {
    if f == Vat || f == Total then "AED " else ""
  }

  /** The cell a quote contributes to the row showing field `f`. */
  function CellOf(f: Field, q: Quote): (c: Cell)
    ensures IsRecommendedCell(c) <==> f == Total && q.isRecommended
  {
    match Get(q, f)
    case Text(t) => Cell(t, false)
    case Clauses(cs) => ListCell(Bulleted(Bullet, cs))
    case Amount(a) => Cell(AmountPrefix(f) + AmountText(a), f == Total && q.isRecommended)
    case Flag(b) => Cell(if b then "true" else "false", false)
  }

  /** The header row's texts and the body rows. */
  datatype Table = Table(header: seq<string>, rows: seq<Row<Cell>>)

  /** The comparison table: "S.No.", "Particulars" and one header per
      insurer, then the body rows. */
  function ComparisonTable(quotes: seq<Quote>): (t: Table)
    ensures t.header == ["S.No.", "Particulars"] + Companies(quotes)
    ensures t.rows == ComparisonRows(quotes)
  {
    Table(["S.No.", "Particulars"] + Companies(quotes), ComparisonRows(quotes))
  }

  /** The ten body rows, numbered 1 to 10, with one cell per quote; only a
      recommended quote's total is marked. */
  function ComparisonRows(quotes: seq<Quote>): (rows: seq<Row<Cell>>)
    ensures |rows| == 10
    ensures forall i :: 0 <= i < 10 ==> rows[i].number == i + 1 && |rows[i].cells| == |quotes|
    ensures Captions(rows) == [
      "Scope of Cover", "Geographical Limits", "Conditions/Extensions", "Main Exclusions",
      "Deductible", "Premium Rate", "Premium (AED)", "Policy Fee (AED)", "VAT (5%)", "Total (AED)"]
    ensures forall i, k :: 0 <= i < 10 && 0 <= k < |quotes| ==>
      (IsRecommendedCell(rows[i].cells[k]) <==> i == 9 && quotes[k].isRecommended)
  {
    seq(|Layout|, i requires 0 <= i < |Layout| => LayoutRow(Layout[i], i + 1, quotes, CellOf))
  }

  /** The conditions and exclusions cells list the quote's clauses, each
      behind a bullet, in stored order. */
  lemma ClauseCellsOf(quotes: seq<Quote>, k: nat)
    requires k < |quotes|
    ensures ComparisonTable(quotes).rows[2].cells[k] == ListCell(Bulleted(Bullet, quotes[k].conditions))
    ensures ComparisonTable(quotes).rows[3].cells[k] == ListCell(Bulleted(Bullet, quotes[k].exclusions))
  {
    var t := ComparisonTable(quotes);
    assert t.rows[2] == LayoutRow(Layout[2], 3, quotes, CellOf);
    assert t.rows[3] == LayoutRow(Layout[3], 4, quotes, CellOf);
  }

  /** Reads the value of field `f` back from its cell. */
  function ReadCell(f: Field, c: Cell): Option<Value> {
    match f
    case Conditions | Exclusions =>
      if c.ListCell? then
        var cs :- Unbulleted(Bullet, c.items);
        Some(Clauses(cs))
      else None
    case Premium | PolicyFee | Vat | Total =>
      if c.Cell? then
        var t :- StripPrefix(AmountPrefix(f), c.text);
        var a :- ParseAmount(t);
        Some(Amount(a))
      else None
    case _ =>
      if c.Cell? then Some(Text(c.text)) else None
  }

  /** Every field the table shows can be read back from its cell. */
  lemma ReadCellOf(f: Field, q: Quote)
    requires f != IsRecommended
    ensures ReadCell(f, CellOf(f, q)) == Some(Get(q, f))
  {
    match f
    case Conditions => BulletedRoundTrip(Bullet, q.conditions);
    case Exclusions => BulletedRoundTrip(Bullet, q.exclusions);
    case Premium => AmountRoundTrip(q.premium);
    case PolicyFee => AmountRoundTrip(q.policyFee);
    case Vat =>
      AmountRoundTrip(q.vat);
      assert ("AED " + AmountText(q.vat))[4..] == AmountText(q.vat);
    case Total =>
      AmountRoundTrip(q.total);
      assert ("AED " + AmountText(q.total))[4..] == AmountText(q.total);
    case _ =>
  }

  /** The table has the ten body rows and a column `k`. */
  predicate HasColumn(t: Table, k: nat) {
    && |t.rows| == |Layout| && k + 2 < |t.header|
    && forall i :: 0 <= i < |t.rows| ==> k < |t.rows[i].cells|
  }

  /** The cell in body row `i` of column `k`, read as that row's field. */
  function ReadAt(t: Table, k: nat, i: nat): Option<Value>
    requires HasColumn(t, k) && i < |Layout|
  {
    ReadCell(Layout[i].field, t.rows[i].cells[k])
  }

  /** Reads the quote shown in column `k` (the quote's id is not shown). */
  function ReadColumn(t: Table, k: nat): Option<Quote> {
    if !HasColumn(t, k) then None
    else
      var scope, limits := TextOf(ReadAt(t, k, 0)), TextOf(ReadAt(t, k, 1));
      var conditions, exclusions := ClausesOf(ReadAt(t, k, 2)), ClausesOf(ReadAt(t, k, 3));
      var deductible, rate := TextOf(ReadAt(t, k, 4)), TextOf(ReadAt(t, k, 5));
      var premium, fee := AmountOf(ReadAt(t, k, 6)), AmountOf(ReadAt(t, k, 7));
      var vat, total := AmountOf(ReadAt(t, k, 8)), AmountOf(ReadAt(t, k, 9));
      if && scope.Some? && limits.Some? && conditions.Some? && exclusions.Some?
         && deductible.Some? && rate.Some? && premium.Some? && fee.Some? && vat.Some? && total.Some?
      then
        Some(Quote("", t.header[k + 2], scope.value, limits.value, conditions.value, exclusions.value,
                   deductible.value, rate.value, premium.value, fee.value, vat.value, total.value,
                   IsRecommendedCell(t.rows[9].cells[k])))
      else None
  }

  /** Column `k` of the table holds quote `k`'s cells. */
  lemma CellsOfTable(quotes: seq<Quote>, k: nat)
    requires k < |quotes|
    ensures Shows(ComparisonTable(quotes), k, quotes[k])
  {
    var t := ComparisonTable(quotes);
    forall i | 0 <= i < |Layout| ensures t.rows[i].cells[k] == CellOf(Layout[i].field, quotes[k]) {
      assert t.rows[i] == LayoutRow(Layout[i], i + 1, quotes, CellOf);
    }
  }

  /** Column `k` of `t` holds the cells of quote `q`. */
  predicate Shows(t: Table, k: nat, q: Quote) {
    && HasColumn(t, k)
    && forall i :: 0 <= i < |Layout| ==> t.rows[i].cells[k] == CellOf(Layout[i].field, q)
  }

  /** A column whose every cell reads back as the matching field of `q`
      reads back as `q` without its id. */
  lemma ReadColumnOf(t: Table, k: nat, q: Quote)
    requires HasColumn(t, k)
    requires TextOf(ReadAt(t, k, 0)) == Some(q.scopeOfCover)
    requires TextOf(ReadAt(t, k, 1)) == Some(q.geographicalLimits)
    requires ClausesOf(ReadAt(t, k, 2)) == Some(q.conditions)
    requires ClausesOf(ReadAt(t, k, 3)) == Some(q.exclusions)
    requires TextOf(ReadAt(t, k, 4)) == Some(q.deductible)
    requires TextOf(ReadAt(t, k, 5)) == Some(q.premiumRate)
    requires AmountOf(ReadAt(t, k, 6)) == Some(q.premium)
    requires AmountOf(ReadAt(t, k, 7)) == Some(q.policyFee)
    requires AmountOf(ReadAt(t, k, 8)) == Some(q.vat)
    requires AmountOf(ReadAt(t, k, 9)) == Some(q.total)
    requires t.header[k + 2] == q.company
    requires IsRecommendedCell(t.rows[9].cells[k]) == q.isRecommended
    ensures ReadColumn(t, k) == Some(q.(id := ""))
  {
  }

  lemma TextReads(t: Table, k: nat, q: Quote)
    requires Shows(t, k, q)
    ensures TextOf(ReadAt(t, k, 0)) == Some(q.scopeOfCover)
    ensures TextOf(ReadAt(t, k, 1)) == Some(q.geographicalLimits)
    ensures TextOf(ReadAt(t, k, 4)) == Some(q.deductible)
    ensures TextOf(ReadAt(t, k, 5)) == Some(q.premiumRate)
  {
    assert t.rows[0].cells[k] == CellOf(ScopeOfCover, q);
    assert t.rows[1].cells[k] == CellOf(GeographicalLimits, q);
    assert t.rows[4].cells[k] == CellOf(Deductible, q);
    assert t.rows[5].cells[k] == CellOf(PremiumRate, q);
  }

  lemma ClauseReads(t: Table, k: nat, q: Quote)
    requires Shows(t, k, q)
    ensures ClausesOf(ReadAt(t, k, 2)) == Some(q.conditions)
    ensures ClausesOf(ReadAt(t, k, 3)) == Some(q.exclusions)
  {
    assert t.rows[2].cells[k] == CellOf(Conditions, q);
    assert t.rows[3].cells[k] == CellOf(Exclusions, q);
    ReadCellOf(Conditions, q);
    ReadCellOf(Exclusions, q);
  }

  lemma PriceReads(t: Table, k: nat, q: Quote)
    requires Shows(t, k, q)
    ensures AmountOf(ReadAt(t, k, 6)) == Some(q.premium)
    ensures AmountOf(ReadAt(t, k, 7)) == Some(q.policyFee)
  {
    assert t.rows[6].cells[k] == CellOf(Premium, q);
    assert t.rows[7].cells[k] == CellOf(PolicyFee, q);
    ReadCellOf(Premium, q);
    ReadCellOf(PolicyFee, q);
  }

  lemma TaxReads(t: Table, k: nat, q: Quote)
    requires Shows(t, k, q)
    ensures AmountOf(ReadAt(t, k, 8)) == Some(q.vat)
    ensures AmountOf(ReadAt(t, k, 9)) == Some(q.total)
    ensures IsRecommendedCell(t.rows[9].cells[k]) == q.isRecommended
  {
    assert t.rows[8].cells[k] == CellOf(Vat, q);
    assert t.rows[9].cells[k] == CellOf(Total, q);
    ReadCellOf(Vat, q);
    ReadCellOf(Total, q);
  }

  /** The table loses nothing of a quote but its id: column `k` reads back
      as quote `k`. */
  lemma TableShowsQuotes(quotes: seq<Quote>, k: nat)
    requires k < |quotes|
    ensures ReadColumn(ComparisonTable(quotes), k) == Some(quotes[k].(id := ""))
  {
    var t, q := ComparisonTable(quotes), quotes[k];
    CellsOfTable(quotes, k);
    TextReads(t, k, q);
    ClauseReads(t, k, q);
    PriceReads(t, k, q);
    TaxReads(t, k, q);
    assert t.header[k + 2] == q.company;
    ReadColumnOf(t, k, q);
  }

  /** The first quote marked recommended, if any. */
  function FirstRecommended(quotes: seq<Quote>): (r: Option<nat>)
    ensures r.None? <==> forall k :: 0 <= k < |quotes| ==> !quotes[k].isRecommended
    ensures r.Some? ==> && r.value < |quotes| && quotes[r.value].isRecommended
                        && forall j :: 0 <= j < r.value ==> !quotes[j].isRecommended
  {
    if quotes == [] then None
    else if quotes[0].isRecommended then Some(0)
    else
      var r := FirstRecommended(quotes[1..]);
      assert forall k :: 1 <= k < |quotes| ==> quotes[k] == quotes[1..][k - 1];
      if r.None? then None else Some(r.value + 1)
  }

  /** The summary's "Recommended Option": the company of the first quote
      marked recommended, or "None marked" when there is none (or its
      company is empty). */
  function RecommendedOption(quotes: seq<Quote>): (r: string)
    ensures (forall k :: 0 <= k < |quotes| ==> !quotes[k].isRecommended) ==> r == "None marked"
    ensures forall k :: 0 <= k < |quotes| && FirstRecommended(quotes) == Some(k) ==>
      r == if quotes[k].company != "" then quotes[k].company else "None marked"
  {
    match FirstRecommended(quotes)
    case None => "None marked"
    case Some(k) => if quotes[k].company != "" then quotes[k].company else "None marked"
  }

  /** With exactly one quote marked, the summary names its company. */
  lemma SummaryNamesRecommended(quotes: seq<Quote>, k: nat)
    requires k < |quotes| && quotes[k].isRecommended && quotes[k].company != ""
    requires forall j :: 0 <= j < |quotes| && j != k ==> !quotes[j].isRecommended
    ensures RecommendedOption(quotes) == quotes[k].company
  {
    var r := FirstRecommended(quotes);
    assert r != None;
  }

  datatype Summary = Summary(insuranceLine: string, companiesCompared: nat, recommendedOption: string)

  /** The comparison page. `insuranceLine` heads it (the page shows it in
      capitals). */
  datatype Report = Report(
    insuranceLine: string,
    reference: string,
    date: string,
    customer: seq<Detail>,
    table: Table,
    advisorComment: Option<string>,
    summary: Summary
  )

  /** The comparison page for a saved comparison. */
  function Render(c: Comparison): (r: Report)
    ensures r.insuranceLine == c.insuranceLine
    ensures r.reference == c.referenceNumber && r.date == Text.Prefix(c.date, 10)
    ensures |r.customer| >= 1 && r.customer[0].caption == "Customer Name:"
    ensures r.customer[0].value == if c.customerName != "" then c.customerName else "N/A"
    ensures r.customer[1..] == OptionalDetails(c)
    ensures r.table == ComparisonTable(c.quotes)
    ensures r.advisorComment.Some? <==> c.advisorComment != ""
    ensures r.advisorComment.Some? ==> r.advisorComment.value == c.advisorComment
    ensures r.summary == Summary(c.insuranceLine, |c.quotes|, RecommendedOption(c.quotes))
  {
    Report(
      insuranceLine := c.insuranceLine,
      reference := c.referenceNumber,
      date := Text.Prefix(c.date, 10),
      customer := [Detail("Customer Name:", if c.customerName != "" then c.customerName else "N/A")]
                  + OptionalDetails(c),
      table := ComparisonTable(c.quotes),
      advisorComment := if c.advisorComment != "" then Some(c.advisorComment) else None,
      summary := Summary(c.insuranceLine, |c.quotes|, RecommendedOption(c.quotes))
    )
  }
}

=== FILE: money.dfy ===
/** Money in whole fils (1 AED = 100 fils), the VAT/total derivation of
    app/page.tsx's `calculateVAT`, and the text JavaScript prints for an
    amount (`${quote.premium}`), together with its parser. */
module Money {
  import opened Wrappers
  import Decimal

  /** VAT rate in percent. */
  const VatPercent: int := 5

  /** `x` is `n / 100` rounded to the nearest integer, halves away from zero
      (what `toFixed(2)` does to an exact decimal tie). */
  ghost predicate RoundsTo(n: int, x: int) {
    var err := n - 100 * x;
    && -50 <= err <= 50
    && (err == 50 ==> n < 0)
    && (err == -50 ==> n > 0)
  }

  /** `n / 100` rounded half away from zero. */
  function RoundHundredth(n: int): (x: int)
    ensures RoundsTo(n, x)
  {
    if n >= 0 then (2 * n + 100) / 200 else -((-2 * n + 100) / 200)
  }

  /** At most one integer is the rounding of `n / 100`. */
  lemma RoundingIsUnique(n: int, x: int, y: int)
    requires RoundsTo(n, x) && RoundsTo(n, y)
    ensures x == y
  {
  }

  datatype VatTotal = VatTotal(vat: int, total: int)

  /** `calculateVAT(premium, policyFee)` in fils: VAT is 5% of the subtotal
      and the total 105% of it, each rounded to the fils. */
  function CalculateVat(premium: int, policyFee: int): (r: VatTotal)
    ensures RoundsTo(VatPercent * (premium + policyFee), r.vat)
    ensures RoundsTo((100 + VatPercent) * (premium + policyFee), r.total)
  {
    var subtotal := premium + policyFee;
    VatTotal(RoundHundredth(5 * subtotal), RoundHundredth(105 * subtotal))
  }

  /** On whole-fils inputs the separately rounded total is exactly the
      subtotal plus the rounded VAT. */
  lemma {:induction false} TotalIsSubtotalPlusVat(premium: int, policyFee: int)
    ensures CalculateVat(premium, policyFee).total
         == premium + policyFee + CalculateVat(premium, policyFee).vat
  {
    var s := premium + policyFee;
    var r := CalculateVat(premium, policyFee);
    assert RoundsTo(105 * s, s + r.vat);
    RoundingIsUnique(105 * s, r.total, s + r.vat);
  }

  /** Nothing to pay gives no VAT and no total; a non-negative subtotal gives
      a VAT no larger than the subtotal and a total at least the subtotal. */
  lemma {:induction false} VatSigns(premium: int, policyFee: int)
    ensures premium + policyFee == 0 ==> CalculateVat(premium, policyFee) == VatTotal(0, 0)
    ensures premium + policyFee >= 0 ==>
      var r := CalculateVat(premium, policyFee);
      0 <= r.vat <= premium + policyFee && premium + policyFee <= r.total
  {
    TotalIsSubtotalPlusVat(premium, policyFee);
  }

  /** The fraction JavaScript prints after the point: nothing for a whole
      amount, and no trailing zero. */
  function FractionText(f: nat): (r: string)
    requires f < 100
    ensures |r| <= 3 && (r == "" <==> f == 0)
    ensures r != "" ==> r[0] == '.' && r[|r| - 1] != '0'
  {
    if f == 0 then ""
    else if f % 10 == 0 then ['.', Decimal.Digit(f / 10)]
    else ['.', Decimal.Digit(f / 10), Decimal.Digit(f % 10)]
  }

  function Abs(x: int): nat {
    if x < 0 then -x else x
  }

  /** `String(x / 100)` for an amount of `x` fils: an optional minus sign,
      the whole dirhams without leading zeros, then the fraction. */
  function AmountText(fils: int): string {
    (if fils < 0 then "-" else "")
      + Decimal.NatToDigits(Abs(fils) / 100)
      + FractionText(Abs(fils) % 100)
  }

  /** A non-empty digit string, as `Some` of its value. */
  function ParseDigits(s: string): (r: Option<nat>)
    ensures r.Some? <==> s != "" && Decimal.AllDigits(s)
  {
    if s != "" && Decimal.AllDigits(s) then Some(Decimal.DigitsValue(s)) else None
  }

  /** Reads back an unsigned amount: whole dirhams, optionally followed by a
      point and one or two fraction digits. */
  function ParseUnsigned(s: string): Option<nat> {
    if |s| >= 3 && s[|s| - 3] == '.' then
      var whole :- ParseDigits(s[..|s| - 3]);
      var frac :- ParseDigits(s[|s| - 2..]);
      Some(100 * whole + frac)
    else if |s| >= 2 && s[|s| - 2] == '.' then
      var whole :- ParseDigits(s[..|s| - 2]);
      var frac :- ParseDigits(s[|s| - 1..]);
      Some(100 * whole + 10 * frac)
    else
      var whole :- ParseDigits(s);
      Some(100 * whole)
  }

  /** Reads back the text JavaScript prints for an amount, in fils. */
  function ParseAmount(s: string): Option<int> {
    if |s| >= 1 && s[0] == '-' then
      var m :- ParseUnsigned(s[1..]);
      Some(-(m as int))
    else
      ParseUnsigned(s)
  }

  /** A whole amount prints without a point and reads back. */
  lemma WholeRoundTrip(n: nat)
    requires n % 100 == 0
    ensures ParseUnsigned(Decimal.NatToDigits(n / 100) + FractionText(n % 100)) == Some(n)
  {
    var s := Decimal.NatToDigits(n / 100);
    Decimal.DigitsRoundTrip(n / 100);
    assert s + FractionText(n % 100) == s;
    assert s[|s| - 1] != '.';
    if |s| >= 2 {
      assert s[|s| - 2] != '.';
    }
    if |s| >= 3 {
      assert s[|s| - 3] != '.';
    }
  }

  /** An amount with one fraction digit reads back. */
  lemma TenthsRoundTrip(n: nat)
    requires n % 100 != 0 && (n % 100) % 10 == 0
    ensures ParseUnsigned(Decimal.NatToDigits(n / 100) + FractionText(n % 100)) == Some(n)
  {
    var w := Decimal.NatToDigits(n / 100);
    var f := n % 100;
    var s := w + FractionText(f);
    Decimal.DigitsRoundTrip(n / 100);
    assert s[..|s| - 2] == w;
    assert s[|s| - 1..] == [Decimal.Digit(f / 10)];
    assert Decimal.DigitsValue(s[|s| - 1..]) == f / 10 by {
      assert s[|s| - 1..][..0] == [];
    }
    if |s| >= 3 {
      assert s[|s| - 3] == w[|w| - 1];
    }
  }

  /** An amount with two fraction digits reads back. */
  lemma HundredthsRoundTrip(n: nat)
    requires (n % 100) % 10 != 0
    ensures ParseUnsigned(Decimal.NatToDigits(n / 100) + FractionText(n % 100)) == Some(n)
  {
    var w := Decimal.NatToDigits(n / 100);
    var f := n % 100;
    var s := w + FractionText(f);
    Decimal.DigitsRoundTrip(n / 100);
    assert s[..|s| - 3] == w;
    var ft := [Decimal.Digit(f / 10), Decimal.Digit(f % 10)];
    assert s[|s| - 2..] == ft;
    assert Decimal.DigitsValue(ft) == f by {
      assert ft[..1] == [Decimal.Digit(f / 10)];
      assert ft[..1][..0] == [];
      assert Decimal.DigitsValue(ft[..1]) == f / 10;
      assert Decimal.DigitsValue(ft) == (f / 10) * 10 + f % 10;
    }
  }

  lemma ParseUnsignedRoundTrip(n: nat)
    ensures ParseUnsigned(Decimal.NatToDigits(n / 100) + FractionText(n % 100)) == Some(n)
  {
    if n % 100 == 0 {
      WholeRoundTrip(n);
    } else if (n % 100) % 10 == 0 {
      TenthsRoundTrip(n);
    } else {
      HundredthsRoundTrip(n);
    }
  }

  /** Parsing the printed amount gives the amount back. */
  lemma {:induction false} AmountRoundTrip(fils: int)
    ensures ParseAmount(AmountText(fils)) == Some(fils)
  {
    var u := Decimal.NatToDigits(Abs(fils) / 100) + FractionText(Abs(fils) % 100);
    ParseUnsignedRoundTrip(Abs(fils));
    if fils < 0 {
      assert AmountText(fils) == "-" + u;
      assert ("-" + u)[1..] == u;
    } else {
      assert AmountText(fils) == u;
      assert u[0] != '-';
    }
  }
}

=== FILE: parity.dfy ===
/** The two renderings of one saved comparison agree in content: the same
    insurer columns, the same quote in each column, the same highlighting
    decision, and clause cells whose lines are the HTML list items. Their
    row orders differ and are not compared. */
module Parity {
  import Text
  import opened Quotes
  import opened Comparisons
  import HtmlReport
  import Workbook

  /** For a comparison whose clauses are single-line, column `k` of the
      HTML table and column `k` of the worksheet show the same insurer, read
      back as the same quote, and highlight the total alike. */
  lemma ColumnsAgree(c: Comparison, k: nat)
    requires k < |c.quotes|
    requires Workbook.SingleLine(c.quotes[k].conditions) && Workbook.SingleLine(c.quotes[k].exclusions)
    ensures var t, s := HtmlReport.Render(c).table, Workbook.BuildSheet(c);
      && t.header == s.header
      && HtmlReport.ReadColumn(t, k) == Workbook.ReadColumn(s, k)
      && HtmlReport.IsRecommendedCell(t.rows[9].cells[k]) == s.rows[7].cells[k].highlighted
  {
    HtmlReport.TableShowsQuotes(c.quotes, k);
    Workbook.SheetShowsQuotes(c, k);
  }

  /** The conditions cell of the worksheet holds, one per line, exactly the
      list items of the HTML conditions cell. */
  lemma ConditionLinesAgree(c: Comparison, k: nat)
    requires k < |c.quotes| && Workbook.SingleLine(c.quotes[k].conditions)
    ensures var t, s := HtmlReport.Render(c).table, Workbook.BuildSheet(c);
      && s.rows[8].cells[k].value.Str? && t.rows[2].cells[k].ListCell?
      && Text.SplitLines(s.rows[8].cells[k].value.text) == t.rows[2].cells[k].items
  {
    HtmlReport.ClauseCellsOf(c.quotes, k);
    Workbook.ClauseCellsOf(c.quotes, k);
    Workbook.ClauseTextLines(c.quotes[k].conditions);
  }

  /** Likewise for the exclusions. */
  lemma ExclusionLinesAgree(c: Comparison, k: nat)
    requires k < |c.quotes| && Workbook.SingleLine(c.quotes[k].exclusions)
    ensures var t, s := HtmlReport.Render(c).table, Workbook.BuildSheet(c);
      && s.rows[9].cells[k].value.Str? && t.rows[3].cells[k].ListCell?
      && Text.SplitLines(s.rows[9].cells[k].value.text) == t.rows[3].cells[k].items
  {
    HtmlReport.ClauseCellsOf(c.quotes, k);
    Workbook.ClauseCellsOf(c.quotes, k);
    Workbook.ClauseTextLines(c.quotes[k].exclusions);
  }
}

=== FILE: quote.dfy ===
/** One insurer's quote and the edits the generator page applies to it:
    `createEmptyQuote`, `updateQuote` and `toggleCondition`. */
module Quotes {
  import Catalog
  import Money
  import Toggle

  /** A quote; money in fils. `vat` and `total` are derived from `premium`
      and `policyFee`. */
  datatype Quote = Quote(
    id: string,
    company: string,
    scopeOfCover: string,
    geographicalLimits: string,
    conditions: seq<string>,
    exclusions: seq<string>,
    deductible: string,
    premiumRate: string,
    premium: int,
    policyFee: int,
    vat: int,
    total: int,
    isRecommended: bool
  )

  /** The companies of the quotes, in quote order. */
  function Companies(quotes: seq<Quote>): (r: seq<string>)
    ensures |r| == |quotes| && forall k :: 0 <= k < |quotes| ==> r[k] == quotes[k].company
  {
    if quotes == [] then [] else [quotes[0].company] + Companies(quotes[1..])
  }

  /** The scope of cover a quote falls back to when its line has none. */
  const DefaultScopeOfCover: string := "All assets of the Insured"

  /** The fields of a quote (`keyof Quote`). */
  datatype Field =
    | Id | Company | ScopeOfCover | GeographicalLimits | Conditions | Exclusions
    | Deductible | PremiumRate | Premium | PolicyFee | Vat | Total | IsRecommended

  /** A field's value, whatever its type. */
  datatype Value = Text(text: string) | Clauses(clauses: seq<string>) | Amount(fils: int) | Flag(flag: bool)

  /** Reads one field of a quote. */
  function Get(q: Quote, f: Field): Value {
    match f
    case Id => Text(q.id)
    case Company => Text(q.company)
    case ScopeOfCover => Text(q.scopeOfCover)
    case GeographicalLimits => Text(q.geographicalLimits)
    case Conditions => Clauses(q.conditions)
    case Exclusions => Clauses(q.exclusions)
    case Deductible => Text(q.deductible)
    case PremiumRate => Text(q.premiumRate)
    case Premium => Amount(q.premium)
    case PolicyFee => Amount(q.policyFee)
    case Vat => Amount(q.vat)
    case Total => Amount(q.total)
    case IsRecommended => Flag(q.isRecommended)
  }

  /** The fields read through `Get` make up the whole quote: two quotes that
      agree on every field are equal. */
  lemma {:induction false} FieldsDetermineQuote(q: Quote, r: Quote)
    requires forall f :: Get(q, f) == Get(r, f)
    ensures q == r
  {
    assert Get(q, Id) == Get(r, Id) && Get(q, Company) == Get(r, Company);
    assert Get(q, ScopeOfCover) == Get(r, ScopeOfCover);
    assert Get(q, GeographicalLimits) == Get(r, GeographicalLimits);
    assert Get(q, Conditions) == Get(r, Conditions) && Get(q, Exclusions) == Get(r, Exclusions);
    assert Get(q, Deductible) == Get(r, Deductible) && Get(q, PremiumRate) == Get(r, PremiumRate);
    assert Get(q, Premium) == Get(r, Premium) && Get(q, PolicyFee) == Get(r, PolicyFee);
    assert Get(q, Vat) == Get(r, Vat) && Get(q, Total) == Get(r, Total);
    assert Get(q, IsRecommended) == Get(r, IsRecommended);
  }

  /** The edits the quote cards issue through `updateQuote`. */
  datatype Edit =
    | SetRecommended(flag: bool)
    | SetScopeOfCover(text: string)
    | SetGeographicalLimits(text: string)
    | SetDeductible(text: string)
    | SetPremiumRate(text: string)
    | SetPremium(fils: int)
    | SetPolicyFee(fils: int)
  {
    function Target(): Field {
      match this
      case SetRecommended(_) => IsRecommended
      case SetScopeOfCover(_) => ScopeOfCover
      case SetGeographicalLimits(_) => GeographicalLimits
      case SetDeductible(_) => Deductible
      case SetPremiumRate(_) => PremiumRate
      case SetPremium(_) => Premium
      case SetPolicyFee(_) => PolicyFee
    }

    function NewValue(): Value {
      match this
      case SetRecommended(b) => Flag(b)
      case SetScopeOfCover(t) => Text(t)
      case SetGeographicalLimits(t) => Text(t)
      case SetDeductible(t) => Text(t)
      case SetPremiumRate(t) => Text(t)
      case SetPremium(a) => Amount(a)
      case SetPolicyFee(a) => Amount(a)
    }
  }

  /** The fields whose change triggers the VAT/total recomputation. */
  predicate RecomputesTax(f: Field) {
    f == Premium || f == PolicyFee
  }

  /** A quote whose VAT and total are those `calculateVAT` derives from its
      premium and policy fee. */
  predicate TaxConsistent(q: Quote) {
    Money.CalculateVat(q.premium, q.policyFee) == Money.VatTotal(q.vat, q.total)
  }

  /** `createEmptyQuote(company)` on the page whose selected line is `line`,
      with the terms of `catalogue`; `id` stands for the random
      `generateId()`. */
  function CreateEmptyQuote(catalogue: Catalog.Catalogue, line: string, company: string, id: string): (q: Quote)
    ensures q.id == id && q.company == company
    ensures var d := Catalog.GetLineDefaults(catalogue, line);
      && q.conditions == d.conditions && q.exclusions == d.exclusions
      && q.deductible == d.deductible
      && (d.scopeOfCover != "" ==> q.scopeOfCover == d.scopeOfCover)
      && (d.scopeOfCover == "" ==> q.scopeOfCover == DefaultScopeOfCover)
      && (d.geographicalLimits != "" ==> q.geographicalLimits == d.geographicalLimits)
      && (d.geographicalLimits == "" ==> q.geographicalLimits == Catalog.DefaultGeographicalLimits)
    ensures q.premiumRate == "" && !q.isRecommended
    ensures q.premium == 0 && q.policyFee == 0 && q.vat == 0 && q.total == 0
    ensures TaxConsistent(q)
  {
    var d := Catalog.GetLineDefaults(catalogue, line);
    Quote(
      id := id,
      company := company,
      scopeOfCover := if d.scopeOfCover != "" then d.scopeOfCover else DefaultScopeOfCover,
      geographicalLimits := if d.geographicalLimits != "" then d.geographicalLimits else Catalog.DefaultGeographicalLimits,
      conditions := d.conditions,
      exclusions := d.exclusions,
      deductible := d.deductible,
      premiumRate := "",
      premium := 0,
      policyFee := 0,
      vat := 0,
      total := 0,
      isRecommended := false
    )
  }

  /** A quote for a line the catalogue does not know: the fallback scope of
      cover and geographical limit, no clauses, no deductible. */
  lemma UnknownLineQuote(catalogue: Catalog.Catalogue, line: string, company: string, id: string)
    requires line !in catalogue
    ensures var q := CreateEmptyQuote(catalogue, line, company, id);
      && q.scopeOfCover == "All assets of the Insured"
      && q.geographicalLimits == "United Arab Emirates"
      && q.conditions == [] && q.exclusions == [] && q.deductible == ""
  {
  }

  /** `{ ...q, [field]: value }`, then, for premium or policy fee, VAT and
      total recomputed from the edited quote. */
  function ApplyEdit(q: Quote, e: Edit): (r: Quote)
    ensures Get(r, e.Target()) == e.NewValue()
    ensures forall f :: f != e.Target() && f != Vat && f != Total ==> Get(r, f) == Get(q, f)
    ensures RecomputesTax(e.Target()) ==> TaxConsistent(r)
    ensures !RecomputesTax(e.Target()) ==> r.vat == q.vat && r.total == q.total
  {
    var edited := match e
      case SetRecommended(b) => q.(isRecommended := b)
      case SetScopeOfCover(t) => q.(scopeOfCover := t)
      case SetGeographicalLimits(t) => q.(geographicalLimits := t)
      case SetDeductible(t) => q.(deductible := t)
      case SetPremiumRate(t) => q.(premiumRate := t)
      case SetPremium(a) => q.(premium := a)
      case SetPolicyFee(a) => q.(policyFee := a);
    if RecomputesTax(e.Target()) then
      var t := Money.CalculateVat(edited.premium, edited.policyFee);
      edited.(vat := t.vat, total := t.total)
    else
      edited
  }

  /** Every edit keeps VAT and total derived from premium and policy fee. */
  lemma EditKeepsTaxConsistent(q: Quote, e: Edit)
    requires TaxConsistent(q)
    ensures TaxConsistent(ApplyEdit(q, e))
  {
    var r := ApplyEdit(q, e);
    if !RecomputesTax(e.Target()) {
      assert Get(r, Premium) == Get(q, Premium);
      assert Get(r, PolicyFee) == Get(q, PolicyFee);
    }
  }

  /** `updateQuote(index, field, value)`: only quote `index` changes, by
      `ApplyEdit`; the others and the length stay. */
  function UpdateQuote(quotes: seq<Quote>, index: nat, e: Edit): (r: seq<Quote>)
    requires index < |quotes|
    ensures |r| == |quotes|
    ensures forall k :: 0 <= k < |quotes| && k != index ==> r[k] == quotes[k]
    ensures r[index] == ApplyEdit(quotes[index], e)
  {
    quotes[index := ApplyEdit(quotes[index], e)]
  }

  /** `toggleCondition(quoteIndex, condition)`: toggles one clause in the
      conditions of one quote. */
  function ToggleCondition(quotes: seq<Quote>, index: nat, condition: string): (r: seq<Quote>)
    requires index < |quotes|
    ensures |r| == |quotes|
    ensures forall k :: 0 <= k < |quotes| && k != index ==> r[k] == quotes[k]
    ensures forall f :: f != Conditions ==> Get(r[index], f) == Get(quotes[index], f)
    ensures condition in r[index].conditions <==> condition !in quotes[index].conditions
    ensures forall c :: c != condition ==> (c in r[index].conditions <==> c in quotes[index].conditions)
    ensures r[index].conditions == Toggle.Toggle(quotes[index].conditions, condition)
  {
    var q := quotes[index];
    quotes[index := q.(conditions := Toggle.Toggle(q.conditions, condition))]
  }

  /** Toggling a clause that was off and then on again gives back exactly the
      quotes before. */
  lemma ToggleConditionTwice(quotes: seq<Quote>, index: nat, condition: string)
    requires index < |quotes| && condition !in quotes[index].conditions
    ensures ToggleCondition(ToggleCondition(quotes, index, condition), index, condition) == quotes
  {
    Toggle.ToggleTwiceAbsent(quotes[index].conditions, condition);
  }
}

=== FILE: reference.dfy ===
/** `generateReferenceNumber`: `GI-` + year + two-digit month + two-digit
    day + `-` + a four-digit random suffix. The date and the random number
    are parameters here. */
module Reference {
  import opened Wrappers
  import opened Decimal

  /** `String(n).padStart(width, '0')`. */
  function ZeroPad(n: nat, width: nat): (r: string)
    ensures AllDigits(r) && DigitsValue(r) == n
    ensures n < Pow10(width) && width >= 1 ==> |r| == width
  {
    var digits := NatToDigits(n);
    DigitsRoundTrip(n);
    PadZerosValue(digits, width);
    assert n < Pow10(width) && width >= 1 ==> |digits| <= width by {
      if n < Pow10(width) && width >= 1 {
        DigitsAtMost(n, width);
      }
    }
    PadStart(digits, width, '0')
  }

  /** The reference number for calendar date `year`-`month`-`day` (month
      counted from 1, as `getMonth() + 1`) and random suffix `random`
      (`Math.floor(Math.random() * 10000)`). */
  function ReferenceNumber(year: nat, month: nat, day: nat, random: nat): string {
    "GI-" + DateDigits(year, month, day) + "-" + ZeroPad(random, 4)
  }

  /** `${year}${month}${day}` with month and day padded to two digits. */
  function DateDigits(year: nat, month: nat, day: nat): string {
    NatToDigits(year) + ZeroPad(month, 2) + ZeroPad(day, 2)
  }

  lemma AllDigitsConcat(a: string, b: string)
    requires AllDigits(a) && AllDigits(b)
    ensures AllDigits(a + b)
  {
    forall i | 0 <= i < |a + b| ensures IsDigit((a + b)[i]) {
      if i < |a| {
        assert (a + b)[i] == a[i];
      } else {
        assert (a + b)[i] == b[i - |a|];
      }
    }
  }

  /** Where the pieces of `GI-<date>-<suffix>` sit. */
  lemma Layout(date: string, suffix: string)
    requires |date| == 8 && |suffix| == 4
    ensures var r := "GI-" + date + "-" + suffix;
      |r| == 16 && r[..3] == "GI-" && r[3..11] == date && r[11] == '-' && r[12..] == suffix
  {
  }

  /** Where year, month and day sit in `YYYYMMDD`. */
  lemma DateLayout(y: string, m: string, d: string)
    requires |y| == 4 && |m| == 2 && |d| == 2
    ensures var date := y + m + d; date[..4] == y && date[4..6] == m && date[6..] == d
  {
  }

  /** The parts a reference number was built from. */
  datatype Parts = Parts(year: nat, month: nat, day: nat, random: nat)

  /** Reads `GI-YYYYMMDD-NNNN` back into its parts. */
  function DecodeReference(r: string): Option<Parts> {
    if && |r| == 16 && r[..3] == "GI-" && r[11] == '-'
       && AllDigits(r[3..7]) && AllDigits(r[7..9]) && AllDigits(r[9..11]) && AllDigits(r[12..])
    then
      Some(Parts(DigitsValue(r[3..7]), DigitsValue(r[7..9]), DigitsValue(r[9..11]), DigitsValue(r[12..])))
    else
      None
  }

  /** A four-digit year prints as four digits. */
  lemma YearDigits(year: nat)
    requires 1000 <= year <= 9999
    ensures |NatToDigits(year)| == 4 && DigitsValue(NatToDigits(year)) == year
  {
    assert Pow10(3) == 1000 && Pow10(4) == 10000;
    DigitsAtMost(year, 4);
    DigitsAtLeast(year, 4);
    DigitsRoundTrip(year);
  }

  /** A number below 100 pads to two digits. */
  lemma TwoDigits(n: nat)
    requires n <= 99
    ensures |ZeroPad(n, 2)| == 2 && AllDigits(ZeroPad(n, 2)) && DigitsValue(ZeroPad(n, 2)) == n
  {
    assert Pow10(2) == 100;
  }

  lemma DateGroups(year: nat, month: nat, day: nat)
    requires 1000 <= year <= 9999 && month <= 99 && day <= 99
    ensures var date := DateDigits(year, month, day);
      && |date| == 8 && AllDigits(date)
      && DigitsValue(date[..4]) == year && DigitsValue(date[4..6]) == month
      && DigitsValue(date[6..]) == day
  {
    var y, m, d := NatToDigits(year), ZeroPad(month, 2), ZeroPad(day, 2);
    YearDigits(year);
    TwoDigits(month);
    TwoDigits(day);
    AllDigitsConcat(y, m);
    AllDigitsConcat(y + m, d);
    DateLayout(y, m, d);
  }

  /** How the decoder reads any `GI-<date>-<suffix>` of the right shape. */
  lemma DecodeLayout(date: string, suffix: string)
    requires |date| == 8 && AllDigits(date) && |suffix| == 4 && AllDigits(suffix)
    ensures DecodeReference("GI-" + date + "-" + suffix)
         == Some(Parts(DigitsValue(date[..4]), DigitsValue(date[4..6]), DigitsValue(date[6..]), DigitsValue(suffix)))
  {
    var r := "GI-" + date + "-" + suffix;
    Layout(date, suffix);
    assert r[3..7] == date[..4] && r[7..9] == date[4..6] && r[9..11] == date[6..];
  }

  /** For a four-digit year, a calendar month and day and a suffix below
      10000, the reference number is 16 characters of the form
      `GI-YYYYMMDD-NNNN`, and it reads back as the parts it was built from. */
  lemma ReferenceNumberShape(year: nat, month: nat, day: nat, random: nat)
    requires 1000 <= year <= 9999 && 1 <= month <= 12 && 1 <= day <= 31 && random <= 9999
    ensures |ReferenceNumber(year, month, day, random)| == 16
    ensures DecodeReference(ReferenceNumber(year, month, day, random)) == Some(Parts(year, month, day, random))
  {
    assert Pow10(4) == 10000;
    var date := DateDigits(year, month, day);
    var n := ZeroPad(random, 4);
    DateGroups(year, month, day);
    DecodeLayout(date, n);
  }
}

=== FILE: seqs.dfy ===
/** Facts about sequences shared by the catalogue and the selection lists. */
module Seqs {

  /** No item occurs twice. */
  predicate NoDuplicates<T(==)>(xs: seq<T>) {
    forall i, j :: 0 <= i < j < |xs| ==> xs[i] != xs[j]
  }
}

=== FILE: tables.dfy ===
/** What the two renderings of a saved comparison share: the labelled rows
    of quote fields, the customer details block and the bulleted clause
    lists, together with the readers that recover what was rendered. */
module Tables {
  import opened Wrappers
  import opened Quotes
  import opened Comparisons

  /** One body row of a comparison table: its caption and the quote field
      whose value fills it, one cell per quote. */
  datatype RowSpec = RowSpec(caption: string, field: Field)

  /** A body row: its serial number, its caption and one cell per quote. */
  datatype Row<C> = Row(number: nat, caption: string, cells: seq<C>)

  /** The captions of the rows, in row order. */
  function Captions<C>(rows: seq<Row<C>>): (r: seq<string>)
    ensures |r| == |rows| && forall i :: 0 <= i < |rows| ==> r[i] == rows[i].caption
  {
    seq(|rows|, i requires 0 <= i < |rows| => rows[i].caption)
  }

  /** The row `spec` describes, numbered `number`: cell `k` renders the
      spec's field of quote `k` through `cellOf`. */
  function LayoutRow<C>(spec: RowSpec, number: nat, quotes: seq<Quote>, cellOf: (Field, Quote) -> C): (r: Row<C>)
    ensures r.number == number && r.caption == spec.caption && |r.cells| == |quotes|
    ensures forall k :: 0 <= k < |quotes| ==> r.cells[k] == cellOf(spec.field, quotes[k])
  {
    Row(number, spec.caption, seq(|quotes|, k requires 0 <= k < |quotes| => cellOf(spec.field, quotes[k])))
  }

  /** One label/value line of the customer details. */
  datatype Detail = Detail(caption: string, value: string)

  /** The bullet both renderings put before each clause: U+2022 and a space. */
  const Bullet: string := "\U{2022} "

  /** The position of a detail caption in the fixed order of the customer
      details. */
  function DetailRank(caption: string): nat {
    if caption == "Address:" then 0
    else if caption == "Business Activity:" then 1
    else if caption == "Location/Premises:" then 2
    else 3
  }

  /** The customer details after the name: address, business activity,
      location and property limit, each only when it is not empty, in that
      order and each at most once. */
  function OptionalDetails(c: Comparison): (r: seq<Detail>)
    ensures forall k :: 0 <= k < |r| ==> r[k].value != ""
    ensures Detail("Address:", c.address) in r <==> c.address != ""
    ensures Detail("Business Activity:", c.businessActivity) in r <==> c.businessActivity != ""
    ensures Detail("Location/Premises:", c.location) in r <==> c.location != ""
    ensures Detail("Property Limit:", c.propertyLimit) in r <==> c.propertyLimit != ""
    ensures |r| == (if c.address != "" then 1 else 0) + (if c.businessActivity != "" then 1 else 0)
                 + (if c.location != "" then 1 else 0) + (if c.propertyLimit != "" then 1 else 0)
    ensures forall i, j :: 0 <= i < j < |r| ==> DetailRank(r[i].caption) < DetailRank(r[j].caption)
  {
    (if c.address != "" then [Detail("Address:", c.address)] else [])
    + (if c.businessActivity != "" then [Detail("Business Activity:", c.businessActivity)] else [])
    + (if c.location != "" then [Detail("Location/Premises:", c.location)] else [])
    + (if c.propertyLimit != "" then [Detail("Property Limit:", c.propertyLimit)] else [])
  }

  /** `s` without its leading `prefix`, or `None` when `s` does not start
      with it. */
  function StripPrefix(prefix: string, s: string): (r: Option<string>)
    ensures r.Some? <==> prefix <= s
    ensures r.Some? ==> s == prefix + r.value
  {
    if |prefix| <= |s| && s[..|prefix|] == prefix then Some(s[|prefix|..]) else None
  }

  /** Each clause with `bullet` in front, in clause order. */
  function Bulleted(bullet: string, clauses: seq<string>): (r: seq<string>)
    ensures |r| == |clauses|
    ensures forall k :: 0 <= k < |r| ==> r[k] == bullet + clauses[k]
  {
    seq(|clauses|, k requires 0 <= k < |clauses| => bullet + clauses[k])
  }

  /** Reads the clauses back from bulleted items; `None` if an item lacks
      the bullet. */
  function Unbulleted(bullet: string, items: seq<string>): (r: Option<seq<string>>)
    ensures r.Some? ==> |r.value| == |items|
    ensures r.Some? ==> forall k :: 0 <= k < |items| ==> items[k] == bullet + r.value[k]
    ensures r.None? ==> exists k :: 0 <= k < |items| && !(bullet <= items[k])
  {
    if items == [] then Some([])
    else
      var head := StripPrefix(bullet, items[0]);
      var tail := Unbulleted(bullet, items[1..]);
      if head.None? then None
      else if tail.None? then
        assert forall k :: 1 <= k < |items| ==> items[k] == items[1..][k - 1];
        None
      else
        var r := [head.value] + tail.value;
        assert forall k :: 1 <= k < |items| ==> items[k] == items[1..][k - 1] && r[k] == tail.value[k - 1];
        Some(r)
  }

  /** Reading the bulleted clauses gives the clauses back. */
  lemma BulletedRoundTrip(bullet: string, clauses: seq<string>)
    ensures Unbulleted(bullet, Bulleted(bullet, clauses)) == Some(clauses)
  {
    var items := Bulleted(bullet, clauses);
    var r := Unbulleted(bullet, items);
    forall k | 0 <= k < |items| ensures r.value[k] == clauses[k] {
      assert (bullet + r.value[k])[|bullet|..] == r.value[k];
      assert (bullet + clauses[k])[|bullet|..] == clauses[k];
    }
    assert r.value == clauses;
  }

  /** What a reader of a rendered cell can recover: the text, the clauses or
      the amount the cell holds, or nothing when it holds another kind. */
  function TextOf(v: Option<Value>): Option<string> {
    if v.Some? && v.value.Text? then Some(v.value.text) else None
  }

  function ClausesOf(v: Option<Value>): Option<seq<string>> {
    if v.Some? && v.value.Clauses? then Some(v.value.clauses) else None
  }

  function AmountOf(v: Option<Value>): Option<int> {
    if v.Some? && v.value.Amount? then Some(v.value.fils) else None
  }
}

=== FILE: text.dfy ===
/** String helpers the application relies on: JavaScript's notion of white
    space and `String.prototype.trim`, Python's `s[:10]`, and splitting and
    joining on the newline character. */
module Text {

  /** The characters ECMAScript's `trim` strips: the WhiteSpace production
      (tab, vertical tab, form feed, zero-width no-break space and every
      Unicode space separator) and the LineTerminator production. */
  const Whitespace: set<char> := {
    '\t', '\U{B}', '\U{C}', '\U{FEFF}',
    ' ', '\U{A0}', '\U{1680}',
    '\U{2000}', '\U{2001}', '\U{2002}', '\U{2003}', '\U{2004}', '\U{2005}',
    '\U{2006}', '\U{2007}', '\U{2008}', '\U{2009}', '\U{200A}',
    '\U{202F}', '\U{205F}', '\U{3000}',
    '\n', '\r', '\U{2028}', '\U{2029}'
  }

  predicate IsWhitespace(c: char) {
    c in Whitespace
  }

  /** True iff the string holds nothing but white space. */
  predicate IsBlank(s: string) {
    forall i :: 0 <= i < |s| ==> IsWhitespace(s[i])
  }

  /** The end of the run of white space in `s` that starts at `i`. */
  function SkipForward(s: string, i: nat): (n: nat)
    requires i <= |s|
    ensures i <= n <= |s|
    ensures forall k :: i <= k < n ==> IsWhitespace(s[k])
    ensures n < |s| ==> !IsWhitespace(s[n])
    decreases |s| - i
  {
    if i < |s| && IsWhitespace(s[i]) then SkipForward(s, i + 1) else i
  }

  /** The start of the run of white space in `s` that ends at `j`. */
  function SkipBackward(s: string, j: nat): (n: nat)
    requires j <= |s|
    ensures n <= j
    ensures forall k :: n <= k < j ==> IsWhitespace(s[k])
    ensures n > 0 ==> !IsWhitespace(s[n - 1])
  {
    if j > 0 && IsWhitespace(s[j - 1]) then SkipBackward(s, j - 1) else j
  }

  /** Drops leading white space. */
  function TrimStart(s: string): (r: string)
    ensures |r| <= |s| && r == s[|s| - |r|..]
    ensures r == "" <==> IsBlank(s)
    ensures r != "" ==> !IsWhitespace(r[0])
    ensures IsBlank(s[..|s| - |r|])
  {
    var n := SkipForward(s, 0);
    assert n < |s| ==> !IsBlank(s);
    s[n..]
  }

  /** Drops trailing white space. */
  function TrimEnd(s: string): (r: string)
    ensures |r| <= |s| && r == s[..|r|]
    ensures r == "" <==> IsBlank(s)
    ensures r != "" ==> !IsWhitespace(r[|r| - 1])
    ensures IsBlank(s[|r|..])
  {
    var n := SkipBackward(s, |s|);
    assert n > 0 ==> !IsBlank(s);
    s[..n]
  }

  /** JavaScript's `s.trim()`: the infix of `s` after its leading white space
      that neither starts nor ends with white space; empty exactly when `s`
      is blank. */
  function Trim(s: string): (r: string)
    ensures r == "" <==> IsBlank(s)
    ensures r != "" ==> !IsWhitespace(r[0]) && !IsWhitespace(r[|r| - 1])
    ensures var k := |s| - |TrimStart(s)|; k + |r| <= |s| && r == s[k..k + |r|]
  {
    var t := TrimStart(s);
    var r := TrimEnd(t);
    assert r == s[|s| - |t|..][..|r|];
    r
  }

  /** What `Trim` drops is white space only: the prefix before the result
      and the suffix after it are blank. Together with `Trim`'s contract
      this pins the result down to the maximal such infix. */
  lemma TrimDropsOnlyWhitespace(s: string)
    ensures var k := |s| - |TrimStart(s)|;
      && k + |Trim(s)| <= |s|
      && IsBlank(s[..k]) && IsBlank(s[k + |Trim(s)|..])
  {
  }

  /** Python's `s[:n]` and JavaScript's `s.substring(0, n)` for `n >= 0`:
      the first `n` characters, or all of `s` when it is shorter. */
  function Prefix(s: string, n: nat): (r: string)
    ensures |r| == if |s| < n then |s| else n
    ensures r <= s
  {
    if |s| <= n then s else s[..n]
  }

  /** Python's `"\n".join(lines)`. */
  function JoinLines(lines: seq<string>): (r: string)
    ensures lines == [] ==> r == ""
    ensures |lines| == 1 ==> r == lines[0]
  {
    if |lines| == 0 then ""
    else if |lines| == 1 then lines[0]
    else lines[0] + "\n" + JoinLines(lines[1..])
  }

  /** Python's `s.split("\n")`: the newline-free pieces between newlines,
      always at least one. */
  function Split(s: string): (r: seq<string>)
    ensures |r| >= 1
    ensures forall k :: 0 <= k < |r| ==> '\n' !in r[k]
  {
    if s == [] then [""]
    else if s[0] == '\n' then [""] + Split(s[1..])
    else
      var rest := Split(s[1..]);
      [[s[0]] + rest[0]] + rest[1..]
  }

  /** The lines of a cell's text; the empty text has no lines. */
  function SplitLines(s: string): (r: seq<string>)
    ensures s == "" <==> r == []
  {
    if s == "" then [] else Split(s)
  }

  lemma {:induction false} SplitNoNewline(a: string)
    requires '\n' !in a
    ensures Split(a) == [a]
    decreases |a|
  {
    if a != [] {
      assert '\n' !in a[1..] by {
        forall k | 0 <= k < |a[1..]| ensures a[1..][k] != '\n' {
          assert a[1..][k] == a[k + 1];
        }
      }
      SplitNoNewline(a[1..]);
      assert [a[0]] + a[1..] == a;
    }
  }

  lemma {:induction false} SplitAfterLine(a: string, rest: string)
    requires '\n' !in a
    ensures Split(a + "\n" + rest) == [a] + Split(rest)
    decreases |a|
  {
    if a == [] {
      assert a + "\n" + rest == "\n" + rest;
      assert ("\n" + rest)[1..] == rest;
    } else {
      var s := a + "\n" + rest;
      assert '\n' !in a[1..] by {
        forall k | 0 <= k < |a[1..]| ensures a[1..][k] != '\n' {
          assert a[1..][k] == a[k + 1];
        }
      }
      assert s[1..] == a[1..] + "\n" + rest;
      assert s[0] == a[0];
      SplitAfterLine(a[1..], rest);
      assert [a[0]] + a[1..] == a;
    }
  }

  /** `split` undoes `join` on at least one newline-free piece. */
  lemma {:induction false} SplitJoinPieces(lines: seq<string>)
    requires |lines| >= 1
    requires forall k :: 0 <= k < |lines| ==> '\n' !in lines[k]
    ensures Split(JoinLines(lines)) == lines
    decreases |lines|
  {
    if |lines| == 1 {
      SplitNoNewline(lines[0]);
    } else {
      SplitAfterLine(lines[0], JoinLines(lines[1..]));
      SplitJoinPieces(lines[1..]);
    }
  }

  /** Splitting the joined text gives the lines back, provided no line
      contains a newline and the lines are not the single empty line, whose
      text is empty and so has no lines. */
  lemma {:induction false} SplitJoin(lines: seq<string>)
    requires lines != [""]
    requires forall k :: 0 <= k < |lines| ==> '\n' !in lines[k]
    ensures SplitLines(JoinLines(lines)) == lines
  {
    if |lines| >= 1 {
      SplitJoinPieces(lines);
      assert JoinLines(lines) != "" by {
        if |lines| > 1 {
          assert |JoinLines(lines)| >= |lines[0]| + 1;
        }
      }
    }
  }
}

=== FILE: toggle.dfy ===
/** The membership toggle on lists of names shared by `handleCompanyToggle` and
    `toggleCondition`: `xs.includes(x) ? xs.filter(c => c !== x) : [...xs, x]`. */
module Toggle {
  import opened Seqs

  /** `xs.filter(c => c !== x)`. */
  function RemoveAll(xs: seq<string>, x: string): (r: seq<string>)
    ensures x !in r
    ensures forall y :: y != x ==> (y in r <==> y in xs)
    ensures |r| <= |xs| && (x in xs ==> |r| < |xs|)
  {
    if xs == [] then []
    else
      assert xs == [xs[0]] + xs[1..];
      if xs[0] == x then RemoveAll(xs[1..], x) else [xs[0]] + RemoveAll(xs[1..], x)
  }

  /** Removal leaves every other item with as many occurrences as before. */
  lemma {:induction false} RemoveAllKeepsOthers(xs: seq<string>, x: string, y: string)
    requires y != x
    ensures multiset(RemoveAll(xs, x))[y] == multiset(xs)[y]
    decreases |xs|
  {
    if xs != [] {
      assert xs == [xs[0]] + xs[1..];
      RemoveAllKeepsOthers(xs[1..], x, y);
    }
  }

  /** Removal works piecewise, so the survivors keep their relative order. */
  lemma {:induction false} RemoveAllAppend(a: seq<string>, b: seq<string>, x: string)
    ensures RemoveAll(a + b, x) == RemoveAll(a, x) + RemoveAll(b, x)
    decreases |a|
  {
    if a != [] {
      assert (a + b)[1..] == a[1..] + b;
      RemoveAllAppend(a[1..], b, x);
    } else {
      assert a + b == b;
    }
  }

  /** Removing an absent item changes nothing. */
  lemma {:induction false} RemoveAllAbsent(xs: seq<string>, x: string)
    requires x !in xs
    ensures RemoveAll(xs, x) == xs
    decreases |xs|
  {
    if xs != [] {
      RemoveAllAbsent(xs[1..], x);
    }
  }

  /** Remove `x` if present, otherwise append it at the end. */
  function Toggle(xs: seq<string>, x: string): (r: seq<string>)
    ensures x in r <==> x !in xs
    ensures forall y :: y != x ==> (y in r <==> y in xs)
    ensures x in xs ==> |r| < |xs|
    ensures x in xs ==> r == RemoveAll(xs, x)
    ensures x !in xs ==> |r| == |xs| + 1 && r[..|xs|] == xs && r[|xs|] == x
  {
    if x in xs then RemoveAll(xs, x) else xs + [x]
  }

  /** Toggling leaves every other item with as many occurrences as before. */
  lemma ToggleKeepsOthers(xs: seq<string>, x: string, y: string)
    requires y != x
    ensures multiset(Toggle(xs, x))[y] == multiset(xs)[y]
  {
    if x in xs {
      RemoveAllKeepsOthers(xs, x, y);
    }
  }

  /** Toggling an absent item twice restores the exact sequence. */
  lemma ToggleTwiceAbsent(xs: seq<string>, x: string)
    requires x !in xs
    ensures Toggle(Toggle(xs, x), x) == xs
  {
    RemoveAllAppend(xs, [x], x);
    RemoveAllAbsent(xs, x);
  }

  /** Toggling a present item twice restores membership, but the item moves
      to the end: it is not put back at its old position. */
  lemma ToggleTwicePresent(xs: seq<string>, x: string)
    requires x in xs
    ensures Toggle(Toggle(xs, x), x) == RemoveAll(xs, x) + [x]
  {
  }

  /** On a duplicate-free sequence, removing an item deletes exactly its one
      occurrence: the prefix before it and the suffix after it remain. */
  lemma {:induction false} RemoveOnly(xs: seq<string>, i: nat)
    requires NoDuplicates(xs) && i < |xs|
    ensures RemoveAll(xs, xs[i]) == xs[..i] + xs[i + 1..]
  {
    var x := xs[i];
    var before, after := xs[..i], xs[i + 1..];
    assert xs == before + [x] + after;
    assert x !in before by {
      forall k | 0 <= k < |before| ensures before[k] != x {
        assert before[k] == xs[k];
      }
    }
    assert x !in after by {
      forall k | 0 <= k < |after| ensures after[k] != x {
        assert after[k] == xs[i + 1 + k];
      }
    }
    RemoveAllAppend(before + [x], after, x);
    RemoveAllAppend(before, [x], x);
    RemoveAllAbsent(before, x);
    RemoveAllAbsent(after, x);
  }

  /** Toggling keeps a duplicate-free sequence duplicate-free (so a selection
      never lists an insurer twice). */
  lemma TogglePreservesNoDuplicates(xs: seq<string>, x: string)
    requires NoDuplicates(xs)
    ensures NoDuplicates(Toggle(xs, x))
  {
    if x in xs {
      var i :| 0 <= i < |xs| && xs[i] == x;
      RemoveOnly(xs, i);
      var r := xs[..i] + xs[i + 1..];
      forall a, b | 0 <= a < b < |r| ensures r[a] != r[b] {
        var ia := if a < i then a else a + 1;
        var ib := if b < i then b else b + 1;
        assert r[a] == xs[ia] && r[b] == xs[ib];
      }
    }
  }
}

=== FILE: workbook.dfy ===
/** The worksheet layout of the spreadsheet variant, as its openpyxl script
    lays it out: title, reference and date lines, the customer details, a
    header row, eight detail rows, the conditions and exclusions rows, and
    the advisor's comment. Fonts, fills other than the recommended
    highlight, borders, merges and column widths are not modelled. */
module Workbook {
  import opened Wrappers
  import Text
  import opened Quotes
  import opened Comparisons
  import opened Tables

  /** The rows written by the loop over `details`, in order. */
  const DetailLayout: seq<RowSpec> := [
    RowSpec("Scope of Cover", ScopeOfCover),
    RowSpec("Geographical Limits", GeographicalLimits),
    RowSpec("Deductible", Deductible),
    RowSpec("Premium Rate", PremiumRate),
    RowSpec("Premium (AED)", Premium),
    RowSpec("Policy Fee (AED)", PolicyFee),
    RowSpec("VAT 5% (AED)", Vat),
    RowSpec("Total (AED)", Total)
  ]

  /** The two rows written after them. */
  const ClauseLayout: seq<RowSpec> := [
    RowSpec("Conditions/Extensions", Conditions),
    RowSpec("Main Exclusions", Exclusions)
  ]

  const Layout: seq<RowSpec> := DetailLayout + ClauseLayout

  /** The number format of the money cells. */
  const MoneyFormat: string := "#,##0.00"

  /** What a cell holds: text, or a number of fils shown with a format. */
  datatype CellValue = Str(text: string) | Num(fils: int, numberFormat: string)

  /** A cell and whether it gets the recommended fill and font. */
  datatype Cell = Cell(value: CellValue, highlighted: bool)

  /** The bullet the script's source text actually holds in front of each
      clause: the UTF-8 bytes of U+2022 read as Mac OS Roman, then a space. */
  const WrittenBullet: string := "\U{201A}\U{C4}\U{A2} "

  /** A conditions or exclusions cell as the script writes it:
      `"\n".join([f"‚Ä¢ {c}" for c in clauses])`. */
  function ClauseTextAsWritten(clauses: seq<string>): string {
    Text.JoinLines(Bulleted(WrittenBullet, clauses))
  }

  /** A conditions or exclusions cell with the intended bullet: the HTML
      list items, one per line. */
  function ClauseText(clauses: seq<string>): string {
    Text.JoinLines(Bulleted(Bullet, clauses))
  }

  /** The cell a quote contributes to the row showing field `f`. Money is
      written as a number; only a recommended quote's total is
      highlighted. Clause cells use the intended bullet (`ClauseText`), not
      the one the script's source holds (`ClauseTextAsWritten`). */
  function CellOf(f: Field, q: Quote): (c: Cell)
    ensures c.highlighted <==> f == Total && q.isRecommended
    ensures c.value.Num? <==> f in {Premium, PolicyFee, Vat, Total}
    ensures c.value.Num? ==> c.value.numberFormat == MoneyFormat
  {
    match Get(q, f)
    case Amount(a) => Cell(Num(a, MoneyFormat), f == Total && q.isRecommended)
    case Clauses(cs) => Cell(Str(ClauseText(cs)), false)
    case Text(t) => Cell(Str(t), false)
    case Flag(b) => Cell(Str(if b then "True" else "False"), false)
  }

  /** The worksheet. `reference` and `date` are the texts of row 2. */
  datatype Sheet = Sheet(
    title: string,
    reference: string,
    date: string,
    customer: seq<Detail>,
    header: seq<string>,
    rows: seq<Row<Cell>>,
    advisorComment: Option<string>
  )

  /** The ten comparison rows, numbered 1 to 10: the eight detail rows, then
      conditions, then exclusions. Money cells hold numbers in the money
      format, every other cell text, and only a recommended quote's total
      cell is highlighted. */
  function ComparisonRows(quotes: seq<Quote>): (rows: seq<Row<Cell>>)
    ensures |rows| == 10
    ensures forall i :: 0 <= i < 10 ==> rows[i].number == i + 1 && |rows[i].cells| == |quotes|
    ensures Captions(rows) == [
      "Scope of Cover", "Geographical Limits", "Deductible", "Premium Rate", "Premium (AED)",
      "Policy Fee (AED)", "VAT 5% (AED)", "Total (AED)", "Conditions/Extensions", "Main Exclusions"]
    ensures forall i, k :: 0 <= i < 10 && 0 <= k < |quotes| ==>
      (rows[i].cells[k].highlighted <==> i == 7 && quotes[k].isRecommended)
    ensures forall i, k :: 0 <= i < 10 && 0 <= k < |quotes| ==>
      (rows[i].cells[k].value.Num? <==> 4 <= i < 8)
    ensures forall i, k :: 4 <= i < 8 && 0 <= k < |quotes| ==>
      rows[i].cells[k].value.numberFormat == MoneyFormat
  {
    seq(|Layout|, i requires 0 <= i < |Layout| => LayoutRow(Layout[i], i + 1, quotes, CellOf))
  }

  /** The worksheet for a saved comparison. */
  function BuildSheet(c: Comparison): (s: Sheet)
    ensures s.title == c.insuranceLine + " - Insurance Comparison"
    ensures s.reference == "Reference: " + c.referenceNumber
    ensures s.date == "Date: " + Text.Prefix(c.date, 10)
    ensures |s.customer| >= 1 && s.customer[0] == Detail("Customer Name:", c.customerName)
    ensures s.customer[1..] == OptionalDetails(c)
    ensures s.header == ["S.No.", "Particulars"] + Companies(c.quotes)
    ensures s.rows == ComparisonRows(c.quotes)
    ensures s.advisorComment.Some? <==> c.advisorComment != ""
    ensures s.advisorComment.Some? ==> s.advisorComment.value == c.advisorComment
  {
    Sheet(
      title := c.insuranceLine + " - Insurance Comparison",
      reference := "Reference: " + c.referenceNumber,
      date := "Date: " + Text.Prefix(c.date, 10),
      customer := [Detail("Customer Name:", c.customerName)] + OptionalDetails(c),
      header := ["S.No.", "Particulars"] + Companies(c.quotes),
      rows := ComparisonRows(c.quotes),
      advisorComment := if c.advisorComment != "" then Some(c.advisorComment) else None
    )
  }

  /** The conditions and exclusions cells are the quote's clauses, each
      behind a bullet, one per line in stored order. */
  lemma ClauseCellsOf(quotes: seq<Quote>, k: nat)
    requires k < |quotes|
    ensures ComparisonRows(quotes)[8].cells[k] == Cell(Str(ClauseText(quotes[k].conditions)), false)
    ensures ComparisonRows(quotes)[9].cells[k] == Cell(Str(ClauseText(quotes[k].exclusions)), false)
  {
    var rows := ComparisonRows(quotes);
    assert rows[8] == LayoutRow(Layout[8], 9, quotes, CellOf);
    assert rows[9] == LayoutRow(Layout[9], 10, quotes, CellOf);
  }

  /** No clause spans several lines. */
  predicate SingleLine(clauses: seq<string>) {
    forall k :: 0 <= k < |clauses| ==> '\n' !in clauses[k]
  }

  lemma NoNewlineConcat(a: string, b: string)
    requires '\n' !in a && '\n' !in b
    ensures '\n' !in a + b
  {
    forall i | 0 <= i < |a + b| ensures (a + b)[i] != '\n' {
      if i < |a| {
        assert (a + b)[i] == a[i];
      } else {
        assert (a + b)[i] == b[i - |a|];
      }
    }
  }

  /** With single-line clauses, the lines of a clause cell are exactly the
      items of the HTML list for the same clauses. */
  lemma ClauseTextLines(clauses: seq<string>)
    requires SingleLine(clauses)
    ensures Text.SplitLines(ClauseText(clauses)) == Bulleted(Bullet, clauses)
  {
    var items := Bulleted(Bullet, clauses);
    assert '\n' !in Bullet;
    forall k | 0 <= k < |items| ensures '\n' !in items[k] && items[k] != "" {
      NoNewlineConcat(Bullet, clauses[k]);
    }
    assert items != [""] by {
      if |items| == 1 {
        assert |items[0]| >= |Bullet|;
      }
    }
    Text.SplitJoin(items);
  }

  /** The cell as written starts with other characters than the bullet of
      the HTML list: for the single clause "Riot" the cell is "‚Ä¢ Riot"
      where "• Riot" is meant. */
  lemma WrittenBulletDiffers()
    ensures ClauseTextAsWritten(["Riot"]) == "\U{201A}\U{C4}\U{A2} Riot"
    ensures ClauseTextAsWritten(["Riot"]) != ClauseText(["Riot"])
  {
    assert ClauseText(["Riot"]) == "\U{2022} Riot";
    assert ClauseText(["Riot"])[0] == '\U{2022}';
  }

  /** Reads the value of field `f` back from its cell. */
  function ReadCell(f: Field, c: Cell): Option<Value> {
    match f
    case Premium | PolicyFee | Vat | Total =>
      if c.value.Num? then Some(Amount(c.value.fils)) else None
    case Conditions | Exclusions =>
      if c.value.Str? then
        var cs :- Unbulleted(Bullet, Text.SplitLines(c.value.text));
        Some(Clauses(cs))
      else None
    case _ =>
      if c.value.Str? then Some(Text(c.value.text)) else None
  }

  /** A quote whose clauses are single-line can be read back from every
      cell the worksheet shows. */
  lemma ReadCellOf(f: Field, q: Quote)
    requires f != IsRecommended
    requires SingleLine(q.conditions) && SingleLine(q.exclusions)
    ensures ReadCell(f, CellOf(f, q)) == Some(Get(q, f))
  {
    match f
    case Conditions =>
      ClauseTextLines(q.conditions);
      BulletedRoundTrip(Bullet, q.conditions);
    case Exclusions =>
      ClauseTextLines(q.exclusions);
      BulletedRoundTrip(Bullet, q.exclusions);
    case _ =>
  }

  /** The sheet has the ten comparison rows and a column `k`. */
  predicate HasColumn(s: Sheet, k: nat) {
    && |s.rows| == |Layout| && k + 2 < |s.header|
    && forall i :: 0 <= i < |s.rows| ==> k < |s.rows[i].cells|
  }

  /** The cell in comparison row `i` of column `k`, read as that row's field. */
  function ReadAt(s: Sheet, k: nat, i: nat): Option<Value>
    requires HasColumn(s, k) && i < |Layout|
  {
    ReadCell(Layout[i].field, s.rows[i].cells[k])
  }

  /** Reads the quote shown in column `k` (the quote's id is not shown). */
  function ReadColumn(s: Sheet, k: nat): Option<Quote> {
    if !HasColumn(s, k) then None
    else
      var scope, limits := TextOf(ReadAt(s, k, 0)), TextOf(ReadAt(s, k, 1));
      var deductible, rate := TextOf(ReadAt(s, k, 2)), TextOf(ReadAt(s, k, 3));
      var premium, fee := AmountOf(ReadAt(s, k, 4)), AmountOf(ReadAt(s, k, 5));
      var vat, total := AmountOf(ReadAt(s, k, 6)), AmountOf(ReadAt(s, k, 7));
      var conditions, exclusions := ClausesOf(ReadAt(s, k, 8)), ClausesOf(ReadAt(s, k, 9));
      if && scope.Some? && limits.Some? && conditions.Some? && exclusions.Some?
         && deductible.Some? && rate.Some? && premium.Some? && fee.Some? && vat.Some? && total.Some?
      then
        Some(Quote("", s.header[k + 2], scope.value, limits.value, conditions.value, exclusions.value,
                   deductible.value, rate.value, premium.value, fee.value, vat.value, total.value,
                   s.rows[7].cells[k].highlighted))
      else None
  }

  /** Column `k` of `s` holds the cells of quote `q`. */
  predicate Shows(s: Sheet, k: nat, q: Quote) {
    && HasColumn(s, k)
    && forall i :: 0 <= i < |Layout| ==> s.rows[i].cells[k] == CellOf(Layout[i].field, q)
  }

  /** Column `k` of the worksheet holds quote `k`'s cells. */
  lemma CellsOfSheet(c: Comparison, k: nat)
    requires k < |c.quotes|
    ensures Shows(BuildSheet(c), k, c.quotes[k])
  {
    var rows := ComparisonRows(c.quotes);
    forall i | 0 <= i < |Layout| ensures rows[i].cells[k] == CellOf(Layout[i].field, c.quotes[k]) {
      assert rows[i] == LayoutRow(Layout[i], i + 1, c.quotes, CellOf);
    }
  }

  /** A column whose every cell reads back as the matching field of `q`
      reads back as `q` without its id. */
  lemma ReadColumnOf(s: Sheet, k: nat, q: Quote)
    requires HasColumn(s, k)
    requires TextOf(ReadAt(s, k, 0)) == Some(q.scopeOfCover)
    requires TextOf(ReadAt(s, k, 1)) == Some(q.geographicalLimits)
    requires TextOf(ReadAt(s, k, 2)) == Some(q.deductible)
    requires TextOf(ReadAt(s, k, 3)) == Some(q.premiumRate)
    requires AmountOf(ReadAt(s, k, 4)) == Some(q.premium)
    requires AmountOf(ReadAt(s, k, 5)) == Some(q.policyFee)
    requires AmountOf(ReadAt(s, k, 6)) == Some(q.vat)
    requires AmountOf(ReadAt(s, k, 7)) == Some(q.total)
    requires ClausesOf(ReadAt(s, k, 8)) == Some(q.conditions)
    requires ClausesOf(ReadAt(s, k, 9)) == Some(q.exclusions)
    requires s.header[k + 2] == q.company
    requires s.rows[7].cells[k].highlighted == q.isRecommended
    ensures ReadColumn(s, k) == Some(q.(id := ""))
  {
  }

  lemma TextReads(s: Sheet, k: nat, q: Quote)
    requires Shows(s, k, q)
    ensures TextOf(ReadAt(s, k, 0)) == Some(q.scopeOfCover)
    ensures TextOf(ReadAt(s, k, 1)) == Some(q.geographicalLimits)
    ensures TextOf(ReadAt(s, k, 2)) == Some(q.deductible)
    ensures TextOf(ReadAt(s, k, 3)) == Some(q.premiumRate)
  {
    assert s.rows[0].cells[k] == CellOf(ScopeOfCover, q);
    assert s.rows[1].cells[k] == CellOf(GeographicalLimits, q);
    assert s.rows[2].cells[k] == CellOf(Deductible, q);
    assert s.rows[3].cells[k] == CellOf(PremiumRate, q);
  }

  lemma AmountReads(s: Sheet, k: nat, q: Quote)
    requires Shows(s, k, q)
    ensures AmountOf(ReadAt(s, k, 4)) == Some(q.premium)
    ensures AmountOf(ReadAt(s, k, 5)) == Some(q.policyFee)
    ensures AmountOf(ReadAt(s, k, 6)) == Some(q.vat)
    ensures AmountOf(ReadAt(s, k, 7)) == Some(q.total)
    ensures s.rows[7].cells[k].highlighted == q.isRecommended
  {
    assert s.rows[4].cells[k] == CellOf(Premium, q);
    assert s.rows[5].cells[k] == CellOf(PolicyFee, q);
    assert s.rows[6].cells[k] == CellOf(Vat, q);
    assert s.rows[7].cells[k] == CellOf(Total, q);
  }

  lemma ClauseReads(s: Sheet, k: nat, q: Quote)
    requires Shows(s, k, q)
    requires SingleLine(q.conditions) && SingleLine(q.exclusions)
    ensures ClausesOf(ReadAt(s, k, 8)) == Some(q.conditions)
    ensures ClausesOf(ReadAt(s, k, 9)) == Some(q.exclusions)
  {
    assert s.rows[8].cells[k] == CellOf(Conditions, q);
    assert s.rows[9].cells[k] == CellOf(Exclusions, q);
    ReadCellOf(Conditions, q);
    ReadCellOf(Exclusions, q);
  }

  /** With single-line clauses the worksheet loses nothing of a quote but
      its id: column `k` reads back as quote `k`. */
  lemma SheetShowsQuotes(c: Comparison, k: nat)
    requires k < |c.quotes|
    requires SingleLine(c.quotes[k].conditions) && SingleLine(c.quotes[k].exclusions)
    ensures ReadColumn(BuildSheet(c), k) == Some(c.quotes[k].(id := ""))
  {
    var s, q := BuildSheet(c), c.quotes[k];
    CellsOfSheet(c, k);
    TextReads(s, k, q);
    AmountReads(s, k, q);
    ClauseReads(s, k, q);
    assert s.header[k + 2] == q.company;
    ReadColumnOf(s, k, q);
  }
}

=== FILE: wrappers.dfy ===
/** Failure-compatible Option, used wherever the application reads or looks
    something up that may be absent. */
module Wrappers {

  datatype Option<+T> = None | Some(value: T) {

    predicate IsFailure() {
      None?
    }

    function PropagateFailure<U>(): Option<U>
      requires None?
    {
      None
    }

    function Extract(): T
      requires Some?
    {
      value
    }

    /** The JavaScript `x?.field || fallback` idiom: the value when present,
        otherwise the fallback. */
    function GetOr(default: T): T {
      match this
      case Some(v) => v
      case None => default
    }
  }
}
